=== FILE: README.md ===
# Match-3 grid engine in Dafny

This is a Dafny model of the rules engine of a Unity match-3 game. Its state is one
shared grid of token references. Each cell holds a token or null. The model covers:

- how runs of three or more tokens of one kind are found and destroyed;
- how the tokens above a hole fall one cell per completed motion;
- how the top row is refilled with new tokens of a kind chosen in range;
- how two clicks select two tokens and start an animated exchange, which undoes
  itself once if it makes no match;
- how the game manager's per-frame Update sequences all of this.

Layout, one module per script:

| file | module | models |
|---|---|---|
| `grid.dfy` | `Grid` | tokens, cells, grid snapshots, token counts |
| `game_manager.dfy` | `Game` | `GameManagerScript`: the grid array, fill, lookups, world positions |
| `match_manager.dfy` | `Matches` | `MatchManagerScript`: match tests, run lengths, `RemoveMatches` |
| `repopulate.dfy` | `Repopulate` | `RepopulateScript` |
| `move_tokens.dfy` | `Motion` | `MoveTokensScript` |
| `input_manager.dfy` | `Input` | `InputManagerScript` and `ThreeInputManagerScript` |
| `simulation.dfy` | `Simulation` | `GameManagerScript.Update` |

Modelling decisions:

- A token is `Token(id, kind)`.
  - `kind` is the sprite, which is all that matching compares.
  - `id` is the scene object's identity, which lookup and swapping compare.
  - New tokens take their ids from a counter `nextId`, so no two tokens share an id.
- A cell is `Option<Token>`.
- A grid snapshot `Cells` is column-major, `c[x][y]`, with row 0 at the bottom.
- `GameManager` is a class.
  - It owns the `array2<Cell>` and writes it only through `SetCell`.
  - Its ghost function `Cells()` is the array as a value.
  - Each method on the grid is proved against a specification function over `Cells()`.
- The stateless scripts become module-level methods that take the game manager.
  These are `MatchManagerScript` and `RepopulateScript`.
- `MoveTokensScript` and the input manager are classes whose fields are updated in place.
- The input manager's subclass, which overrides `SelectToken` only to change the
  distance test, becomes one class with a `SelectionRule` constant.
- Unity's component wiring is replaced by collaborators passed in explicitly.
- `lerpPercent` and `lerpSpeed` are exact `real`s, so the `== 1` tests are exact.
- `Random.Range` over the loaded kinds is a nondeterministic choice of a kind in
  `[0, tokenTypes)`.
- A mouse click with a collider under it is an `Option<Token>` argument.

Behaviour of the code that the model keeps:

- Removal is two passes, horizontal then vertical, and each nulls cells as it goes.
- A fall is written to the grid only in the frame in which the motion reaches 1.
- Each fall written to the grid refills the top row at once, in the middle of the pass.
- A second click at a distance the rule rejects deselects the first token and does nothing else.
- A token on no cell is looked up as (0, 0).
- The code checks no grid size, and a grid with no column or no row runs. Requiring at least
  one column and one row is this model's own choice; it keeps the top row defined.
- At least one kind is required, because with no kind `Random.Range(0, 0)` indexes an empty array.

The one deliberate departure from the code is the vertical scan bound; see "## Findings".

## Model

| member | source | states |
|---|---|---|
| Game.GameManager.constructor | Match3/Assets/Scripts/GameManagerScript.cs:27-31 | Start allocates a W×H array and fills it; the manager is valid, no cell is empty, and cell (x, y) holds the token with identity x·H + y, so all W·H tokens are distinct |
| Game.GameManager.MakeGrid | Match3/Assets/Scripts/GameManagerScript.cs:67-77 | after the fill every cell holds a token created by this manager; the column-major fill gives cell (x, y) the (x·H + y)-th new identity, so no two cells share a token, and the counter grows by W·H |
| Game.GameManager.GridHasEmpty | Match3/Assets/Scripts/GameManagerScript.cs:80-92 | true iff some cell of the grid is null |
| Game.FindFrom | Match3/Assets/Scripts/GameManagerScript.cs:100-109 | the column-major scan from (x, y) returns the first cell holding the token, or none if no later cell holds it |
| Game.GameManager.GetPositionOfTokenInGrid | Match3/Assets/Scripts/GameManagerScript.cs:100-109 | returns the first cell (x outer, y inner) holding that very token; returns (0, 0) when it is on no cell; the result is always inside the grid |
| Game.GameManager.GetWorldPositionFromGridPosition | Match3/Assets/Scripts/GameManagerScript.cs:119-123 | with a positive cell size the grid is centred on the origin: a column left of W/2 (integer halving) has a negative world x, and column W/2 has x = 0; the same holds for rows against H/2 |
| Game.GameManager.WorldPositionIsAffine | Match3/Assets/Scripts/GameManagerScript.cs:119-123 | moving by (dx, dy) cells moves the world position by (dx, dy)·tokenSize; cell (W/2, H/2) maps to the origin |
| Game.GameManager.WorldPositionIsInjective | Match3/Assets/Scripts/GameManagerScript.cs:119-123 | with a non-zero cell size, distinct cells have distinct world positions |
| Game.GameManager.AddTokenToPosInGrid | Match3/Assets/Scripts/GameManagerScript.cs:134-144 | writes a new token whose kind is in [0, tokenTypes) at (x, y); changes no other cell; uses a fresh identity |
| Matches.GridHasHorizontalMatch | Match3/Assets/Scripts/MatchManagerScript.cs:45-61 | true iff (x, y), (x+1, y) and (x+2, y) all hold tokens of one kind, i.e. iff the run right from (x, y) is at least 3 long |
| Matches.GridHasVerticalMatch | Match3/Assets/Scripts/MatchManagerScript.cs:71-87 | the same upward along the column |
| Matches.GridHasMatch | Match3/Assets/Scripts/MatchManagerScript.cs:18-36 | true iff a horizontal run of three starts at some x < W-2 or a vertical one at some y < H-2; every index stays in bounds |
| Matches.RunRight | Match3/Assets/Scripts/MatchManagerScript.cs:107-121 | counts the cells from column i on that match the start cell's kind, stopping at the first empty or different cell or at the edge |
| Matches.HorizontalRunLength | Match3/Assets/Scripts/MatchManagerScript.cs:95-125 | between 1 and W-x; 1 for an empty start; exactly the maximal same-kind stretch to the right; at least 3 iff a horizontal match starts there |
| Matches.GetHorizontalMatchLength | Match3/Assets/Scripts/MatchManagerScript.cs:95-125 | the loop with early exit returns HorizontalRunLength |
| Matches.RunUp | Match3/Assets/Scripts/MatchManagerScript.cs:146-160 | the upward count, with the rows it may look at bounded by `bound` |
| Matches.VerticalRunLength | Match3/Assets/Scripts/MatchManagerScript.cs:134-164 | the upward run measured below row `bound`: at least 1, maximal below the bound, and a run of 3 reported only where a vertical match starts; with bound H it is at least 3 iff a vertical match starts there |
| Matches.VerticalScanTruncates | Match3/Assets/Scripts/MatchManagerScript.cs:146 | the scan bounded by the width reports the true upward run cut off at row W; on a square grid the two are equal |
| Matches.GetVerticalMatchLength | Match3/Assets/Scripts/MatchManagerScript.cs:134-164 | the loop returns the true upward run (bounded by the height; see Findings) |
| Matches.ClearRow | Match3/Assets/Scripts/MatchManagerScript.cs:184-190 | nulls exactly the `len` cells of row y from column x on |
| Matches.ClearColumn | Match3/Assets/Scripts/MatchManagerScript.cs:205-211 | nulls exactly the `len` cells of column x from row y on |
| Matches.DestroyRow | Match3/Assets/Scripts/MatchManagerScript.cs:184-190 | the cell-by-cell loop leaves the grid equal to ClearRow of the old grid |
| Matches.DestroyColumn | Match3/Assets/Scripts/MatchManagerScript.cs:205-211 | the cell-by-cell loop leaves the grid equal to ClearColumn of the old grid |
| Matches.RemoveHorizontalMatches | Match3/Assets/Scripts/MatchManagerScript.cs:176-194 | the first pass (columns outer) leaves the grid and count of HorizontalPass |
| Matches.RemoveVerticalMatches | Match3/Assets/Scripts/MatchManagerScript.cs:197-215 | the second pass (rows outer), started on the first pass's grid, leaves the grid and count of VerticalPass |
| Matches.RemoveMatches | Match3/Assets/Scripts/MatchManagerScript.cs:170-218 | the grid and count are those of RemovalOf; only tokens become null; the count equals the drop in tokens; no run of three remains; the count is at least 3 iff a match existed |
| Matches.RemovalAccounting | Match3/Assets/Scripts/MatchManagerScript.cs:184-212 | for any vertical bound, removal only nulls tokens and its count is exactly the drop in tokens. No token is counted twice, because cells the first pass nulls are empty for the second. The count is 0, with the grid unchanged, or at least 3 |
| Matches.RemovalWithoutMatchIsNoOp | Match3/Assets/Scripts/MatchManagerScript.cs:170-218 | on a grid without a match, removal returns 0 and changes nothing |
| Matches.RemovalClearsHorizontalRuns | Match3/Assets/Scripts/MatchManagerScript.cs:176-194 | for any vertical bound, no horizontal run of three survives |
| Matches.RemovalClearsAllRuns | Match3/Assets/Scripts/MatchManagerScript.cs:166-218 | with the height as the bound, no run of three in either direction survives, as the doc comment promises |
| Matches.RemovalRemovesIffMatch | Match3/Assets/Scripts/MatchManagerScript.cs:166-218 | with the height as the bound, at least three tokens are removed iff the grid held a match, and none otherwise |
| Matches.TallGridStall | Match3/Assets/Scripts/MatchManagerScript.cs:146 | counterexample: a 3-wide, 4-high grid that has a match, yet the width-bounded removal removes nothing |
| Repopulate.AddNewTokensToRepopulateGrid | Match3/Assets/Scripts/RepopulateScript.cs:15-25 | every empty top cell gets a new token of a kind in range, whose identity is the old counter plus the number of empty top cells to its left; every other cell is unchanged; the counter grows by the number of empty top cells; the token count grows by as much |
| Repopulate.RefillTopRow | Match3/Assets/Scripts/RepopulateScript.cs:19-24 | the left-to-right loop over the top row leaves exactly that refill of the old grid |
| Repopulate.RefillTokensDistinct | Match3/Assets/Scripts/RepopulateScript.cs:21-22 | two different empty top cells never receive the same token: each call creates its own object |
| Repopulate.RefillCounts | Match3/Assets/Scripts/RepopulateScript.cs:19-24 | a refill adds exactly one token per empty top cell |
| Repopulate.RefillFillsTopRow | Match3/Assets/Scripts/RepopulateScript.cs:19-24 | afterwards every top-row cell holds a token |
| Repopulate.RefillOfFullTopRowIsNoOp | Match3/Assets/Scripts/RepopulateScript.cs:21 | on a full top row a refill changes nothing (a second call is a no-op) |
| Repopulate.RefillKeepsTokens | Match3/Assets/Scripts/RepopulateScript.cs:21 | a refill loses no token |
| Repopulate.RefillAddsOnlyNewTokens | Match3/Assets/Scripts/RepopulateScript.cs:21-22 | a refill loses no token, and every token it adds is a new object that was on no cell before |
| Motion.Advance | Match3/Assets/Scripts/MoveTokensScript.cs:37-42 | the clamped progress never exceeds 1 and does not decrease for a non-negative speed |
| Motion.FramesStayAtEnd | Match3/Assets/Scripts/MoveTokensScript.cs:39-42 | once at 1, further frames keep the progress at 1 |
| Motion.FramesReachEnd | Match3/Assets/Scripts/MoveTokensScript.cs:35-42 | with a positive speed, after n frames with n·speed ≥ 1 - progress the progress is exactly 1, so the `== 1` tests fire |
| Motion.ExchangeSwaps | Match3/Assets/Scripts/MoveTokensScript.cs:123-124 | for two distinct cells the exchange puts token2 at pos1 and token1 at pos2 and leaves every other cell alone |
| Motion.ExchangeRoundTrip | Match3/Assets/Scripts/MoveTokensScript.cs:123-128 | when the tokens were at their recorded cells, the reverse exchange that is set up restores the grid exactly |
| Motion.ExchangeKeepsTokens | Match3/Assets/Scripts/MoveTokensScript.cs:123-124 | exchanging the tokens at the two cells keeps every token exactly as often and the token count unchanged |
| Motion.MoveKeepsTokens | Match3/Assets/Scripts/MoveTokensScript.cs:184-185 | moving a token into an empty cell keeps every token exactly once |
| Motion.MoveAndRefillKeepsTokens | Match3/Assets/Scripts/MoveTokensScript.cs:184-186 | a move into an empty cell followed by the refill loses no token; the grid gains exactly the refill's new tokens |
| Motion.FallStep | Match3/Assets/Scripts/MoveTokensScript.cs:184-186 | after a move and the refill the top row is full, and the vacated cell stays empty unless it is in the top row |
| Motion.GapFreeIsSettled | Match3/Assets/Scripts/MoveTokensScript.cs:202 | when no token sits directly above an empty cell, every cell above an empty cell is empty |
| Motion.SettledEmptyGridHasEmptyTop | Match3/Assets/Scripts/GameManagerScript.cs:55-58 | a grid with a hole in which no token can fall has an empty top cell, so the refill the driver then calls adds a token |
| Motion.MoveTokens.constructor | Match3/Assets/Scripts/MoveTokensScript.cs:24-30 | nothing moves and the progress is 0 |
| Motion.MoveTokens.Update | Match3/Assets/Scripts/MoveTokensScript.cs:32-49 | when not moving, nothing changes. While moving, the progress advances, clamped at 1. The pending exchange completes exactly when it reaches 1, and only then does the grid change |
| Motion.MoveTokens.SetupTokenMove | Match3/Assets/Scripts/MoveTokensScript.cs:54-59 | moving becomes true and the progress 0 |
| Motion.MoveTokens.SetupTokenExchange | Match3/Assets/Scripts/MoveTokensScript.cs:69-81 | starts a motion and records both tokens, both positions and whether the exchange may be undone |
| Motion.MoveTokens.ExchangeTokens | Match3/Assets/Scripts/MoveTokensScript.cs:86-136 | below 1 the grid and state are untouched. At 1 the two recorded cells trade tokens. A reversible exchange that made no match is then set up in reverse, not reversible. Otherwise the exchange ends and moving stops, so an exchange is undone at most once |
| Motion.MoveAndRepopulate | Match3/Assets/Scripts/MoveTokensScript.cs:184-186 | the committed part of a move: the grid is the move followed by the refill, the top row is full, the vacated cell stays empty below the top row, and a fall of one cell down puts the token at the end cell and keeps the cells below it and those of other columns, except empty top cells that are refilled |
| Motion.MoveTokens.MoveTokenToEmptyPos | Match3/Assets/Scripts/MoveTokensScript.cs:161-188 | below 1 nothing changes. At 1 the token is written at the end cell, the start cell is nulled, and the top row is refilled. A move from its own cell into an empty one loses no token |
| Motion.MoveTokens.MoveTokensToFillEmptySpaces | Match3/Assets/Scripts/MoveTokensScript.cs:194-223 | returns true iff some token sat directly above an empty cell. When false, or below 1, the grid is unchanged. No token is lost, and the grid gains exactly the refilled tokens. At 1 a pass that moved leaves the top row full and stops moving, and in every column the token above the lowest gap of the old grid has moved down into it |
| Motion.MoveTokens.FillColumn | Match3/Assets/Scripts/MoveTokensScript.cs:200-214 | one column of that scan: moves iff the column had a token above an empty cell; keeps tokens. At 1 the token above the column's lowest old gap has moved into it, and every cell of the other columns keeps its token (only an empty top cell may be refilled) |
| Motion.MoveTokens.FallFrom | Match3/Assets/Scripts/MoveTokensScript.cs:204-212 | the upward loop over one column from above the empty cell (x, y-1). At 1 the old token of (x, y) is now at (x, y-1), and the cells below it and those of other columns keep their tokens (only an empty top cell may be refilled). No token is lost |
| Motion.FillColumnStep | Match3/Assets/Scripts/MoveTokensScript.cs:198-215 | filling column x after the columns before it keeps the later columns as they were and adds column x's landing to those of the earlier columns |
| Motion.ScanDone | Match3/Assets/Scripts/MoveTokensScript.cs:200-214 | once the scan of a column is over, a fall happened iff the old column had a token above an empty cell, and at 1 the lowest such gap is filled |
| Input.SwapAllowedIsSymmetric | Match3/Assets/Scripts/ThreeInputManagerScript.cs:26-33 | the distance test does not depend on the click order or on the sign of either offset |
| Input.SwapAllowed | Match3/Assets/Scripts/InputManagerScript.cs:38 | no cell is paired with itself. The plain rule (\|dx\| + \|dy\| = 1) allows exactly the four neighbours. The three-apart rule of ThreeInputManagerScript.cs, lines 26-33, allows exactly the offsets whose two coordinates are each -3, 0 or 3, not both 0 |
| Input.ExactlyThreeIsLine | Match3/Assets/Scripts/ThreeInputManagerScript.cs:26-33 | the three-apart rule allows exactly the eight cells three steps away along a row, a column or a diagonal |
| Input.RulesDiffer | Match3/Assets/Scripts/ThreeInputManagerScript.cs:26-33 | neither rule pairs a cell with itself; the three-apart rule rejects neighbours and mixed offsets such as (3, 1) |
| Input.CommentFunc | Match3/Assets/Scripts/InputManagerScript.cs:49-62 | returns x - y: adding y gives back x, and it equals x + y (its documented result) only when y = 0 |
| Input.SelectionAfterRemoval | Match3/Assets/Scripts/MatchManagerScript.cs:186-207 | after a removal the selection is either kept or null. A selected token that was on the grid is kept iff it is still on some cell, since a token the removal destroyed compares equal to null |
| Input.InputManager.SelectedOnGrid | Match3/Assets/Scripts/InputManagerScript.cs:28 | true iff a token is selected and it is on some cell of the grid, so the lookup's cell holds it |
| Input.InputManager.constructor | Match3/Assets/Scripts/InputManagerScript.cs:12-17 | nothing is selected |
| Input.InputManager.SelectToken | Match3/Assets/Scripts/InputManagerScript.cs:19-47 | no click changes nothing. A first click selects and starts no exchange. A second click looks both tokens up. It starts a reversible exchange of the two looked-up cells iff the rule allows the pair, and always deselects. The grid is never written; with the ExactlyThree rule it is the override in ThreeInputManagerScript.cs, lines 6-49 |
| Simulation.Update | Match3/Assets/Scripts/GameManagerScript.cs:38-61 | a full grid with a match loses its matches and tokens. The move manager and the id counter are unchanged, and a selected token that the removal destroyed is deselected, as the null test sees it. A full grid without a match only polls input: the grid is unchanged, and the selection and the move manager change exactly as SelectToken states. A grid with a hole keeps its tokens and the selection. If idle it starts moving without committing a fall. Below 1 the grid is unchanged; at 1 every column's lowest gap is filled and the top row is full. When nothing can fall it is refilled and gains at least one token |
| Simulation.ClearOrSelect | Match3/Assets/Scripts/GameManagerScript.cs:41-49 | the full-grid branch of that frame: RemoveMatches when the grid has a match, deselecting a selected token it destroyed; otherwise SelectToken's effect on the selection and the move manager, with the grid unchanged |
| Simulation.FallOrRefill | Match3/Assets/Scripts/GameManagerScript.cs:50-60 | the branch for a grid with a hole: the progress is reset to 0 only when idle; tokens are kept; a grid with a gap is unchanged below 1 and has each column's lowest gap filled at 1; a grid without a gap is refilled; the exchange fields are untouched |
| Simulation.RefillSettledGrid | Match3/Assets/Scripts/GameManagerScript.cs:55-58 | when no token can fall on a grid with a hole, the refill keeps every token and adds at least one |

## Left out

- Unity's lifecycle and wiring (`Start`, `GetComponent`): collaborators are constructor arguments.
- Scene objects: `Instantiate`, `Destroy`, parenting and every `transform.position` write. These
  are rendering; the model keeps only the grid array.
- `SmoothLerp`, `Mathf.SmoothStep` and `Vector3.Lerp`: they only compute where a token is drawn.
- Float rounding of `lerpPercent += lerpSpeed`: the model uses exact reals.
- `Resources.LoadAll`: the loaded sprites are a count `tokenTypes` of kinds.
- `Random.Range`: it is a nondeterministic choice, so no distribution is modelled.
- `Input.GetMouseButtonDown`, `Camera.main.ScreenToWorldPoint`, `Physics2D.OverlapPoint`: their
  outcome is the `click` argument of `SelectToken`.
- The Unity frame scheduling of `MoveTokens.Update` relative to the game manager's `Update`:
  `Simulation.Update` models the game manager's callback only, and `Motion.MoveTokens.Update`
  is a separate step.
- Unity's destroyed-object null semantics are modelled only for the selection, the one reference
  the code keeps to a token across frames: `ClearOrSelect` deselects a selected token that the removal
  took off the grid. That `Destroy` takes effect at the end of the frame is not modelled; no click is
  read in the frame that destroys.
- The out-of-range read of the width-bounded vertical scan on a grid wider than it is tall is not
  modelled. Once a run reaches the top row, that scan reads row H. The methods use the height bound.
- Matches.GetVerticalMatchLength: bounded by the height rather than by `gridWidth` as written, so
  that the removal it feeds is correct; the as-written bound is kept in `VerticalRunLength` (see Findings).
- Matches.RemoveMatches: uses the height-bounded vertical scan, as above.
- Matches.RemoveVerticalMatches: uses the height-bounded vertical scan, as above.
- Motion.MoveTokens.MoveTokensToFillEmptySpaces: at progress 1 it does not state the exact final
  grid. Every fall refills the top row at once, and the refilled tokens can fall again in the same
  pass. So the contract gives the moved-iff-gap result, token preservation, the exact token count,
  a full top row and the landing at each column's lowest gap, not where every token ends up.
- Motion.MoveTokens.FillColumn: states the same properties for one column, not the exact grid
  above the lowest gap.
- Motion.MoveTokens.FallFrom: states where the token from (x, y) lands and that the cells below and
  beside it are kept, not where the tokens above it end up.
- Simulation.Update: for a grid with holes and the motion at 1, it does not state the exact grid
  after the falls, for the same reason; it does state each column's landing.
- Simulation.FallOrRefill: same as above.
- Game.GameManager.constructor: requires at least one column, one row and one kind. The code
  checks no size, so the bound on columns and rows is this model's choice; with no kind the
  code's `Random.Range(0, 0)` would index an empty array.
- Motion.MoveTokens.SetupTokenExchange: requires both positions inside the grid and both tokens to
  be this grid's. Every caller passes lookups, which are always inside the grid.
- Motion.MoveTokens.ExchangeTokens: requires a pending exchange. The code dereferences both
  exchange tokens and is only called when the first is set.
- Motion.MoveTokens.Update: the source has one `Update`. The model states its effect on the grid
  and the progress; the state after a completed exchange is the one `ExchangeTokens` states.
- The round trip of an exchange is proved on values (`Motion.ExchangeRoundTrip`). The class does
  not keep an invariant that the recorded tokens are still at their recorded cells, because
  selection looks up cells that can be stale.

## Findings

| source | as written | input that shows it | evidently intended | confidence | as-written member | corrected member |
|---|---|---|---|---|---|---|
| Match3/Assets/Scripts/MatchManagerScript.cs:146 | the upward scan of `GetVerticalMatchLength` runs while `i < gameManager.gridWidth` | a 3-wide, 4-high grid, columns bottom to top A B B B / C D C D / D C D C: the run B B B in column 0, rows 1-3, measures 2, so `RemoveMatches` removes nothing while `GridHasMatch` is true and the full grid is never cleared | `i < gameManager.gridHeight`, the bound of the doc comment "how far up a match extends" | not executed | Matches.TallGridStall | Matches.RemovalClearsAllRuns |

`Matches.VerticalScanTruncates` gives the general form of the as-written scan: the true upward
run cut off at row W. `Matches.GetVerticalMatchLength` and `Matches.RemoveMatches` use the
corrected bound. `Matches.RemovalRemovesIffMatch` proves the corrected removal removes at least
three tokens exactly when a match exists.

=== FILE: game_manager.dfy ===
/** The grid owner: dimensions, the token array, the kinds that can be
    spawned, and the helpers every other part of the engine goes through. */
module Game {
  import opened Grid

  class GameManager {
    const gridWidth: nat
    const gridHeight: nat
    /** Side of one cell in world units. */
    const tokenSize: real
    /** How many token kinds (sprites) can be spawned; a kind is an index below it. */
    const tokenTypes: nat
    /** gridArray[x, y] is the token at column x, row y, or null. */
    const gridArray: array2<Cell>
    /** Identity of the next token object to be created. */
    var nextId: nat

    /** The array matches the dimensions, at least one kind exists, and every
        token on the grid is one this manager created. */
    ghost predicate Valid()
      reads this, gridArray
    {
      && gridArray.Length0 == gridWidth && gridArray.Length1 == gridHeight
      && 1 <= gridWidth && 1 <= gridHeight
      && 1 <= tokenTypes
      && forall x, y | 0 <= x < gridWidth && 0 <= y < gridHeight && gridArray[x, y].Some? ::
           Issued(gridArray[x, y].value)
    }

    /** `t` was created by this manager: an identity already handed out and a spawnable kind. */
    ghost predicate Issued(t: Token)
      reads this
    {
      t.id < nextId && t.kind < tokenTypes
    }

    ghost predicate InBounds(p: (int, int)) {
      0 <= p.0 < gridWidth && 0 <= p.1 < gridHeight
    }

    /** The current contents of the grid as a value. */
    ghost function Cells(): (c: Cells)
      reads gridArray
      ensures Shaped(c, gridArray.Length0, gridArray.Length1)
      ensures forall x, y | 0 <= x < gridArray.Length0 && 0 <= y < gridArray.Length1 :: c[x][y] == gridArray[x, y]
    {
      seq(gridArray.Length0, x requires 0 <= x < gridArray.Length0 reads gridArray =>
        seq(gridArray.Length1, y requires 0 <= y < gridArray.Length1 reads gridArray => gridArray[x, y]))
    }

    /** Start: allocate the grid and fill it. */
    constructor (width: nat, height: nat, size: real, kinds: nat)
      requires 1 <= width && 1 <= height && 1 <= kinds
      ensures Valid() && fresh(gridArray)
      ensures gridWidth == width && gridHeight == height && tokenSize == size && tokenTypes == kinds
      ensures !HasEmpty(Cells(), gridWidth, gridHeight) && nextId == width * height
      ensures forall x, y | 0 <= x < width && 0 <= y < height :: gridArray[x, y].value.id == x * height + y
    {
      gridWidth, gridHeight, tokenSize, tokenTypes := width, height, size, kinds;
      gridArray := new Cell[width, height]((x, y) => None);
      nextId := 0;
      new;
      MakeGrid();
    }

    /** The one place where a slot of the array is written. */
    method SetCell(x: int, y: int, v: Cell)
      requires Valid() && 0 <= x < gridWidth && 0 <= y < gridHeight
      requires v.Some? ==> Issued(v.value)
      modifies gridArray
      ensures Valid()
      ensures Cells() == Put(old(Cells()), x, y, v)
    {
      gridArray[x, y] := v;
      ghost var c, c0 := Cells(), Put(old(Cells()), x, y, v);
      forall a | 0 <= a < gridWidth ensures c[a] == c0[a] {
        assert |c[a]| == |c0[a]|;
      }
    }

    /** Fills every cell with a new token, column by column: the cell (x, y)
        gets the (x * gridHeight + y)-th new identity, so no two cells share a token. */
    method MakeGrid()
      requires Valid()
      modifies this, gridArray
      ensures Valid() && nextId == old(nextId) + gridWidth * gridHeight
      ensures forall x, y | 0 <= x < gridWidth && 0 <= y < gridHeight ::
        gridArray[x, y].Some? && gridArray[x, y].value.id == old(nextId) + x * gridHeight + y
    {
      for x := 0 to gridWidth
        invariant Valid() && nextId == old(nextId) + x * gridHeight
        invariant forall a, b | 0 <= a < x && 0 <= b < gridHeight ::
          gridArray[a, b].Some? && gridArray[a, b].value.id == old(nextId) + a * gridHeight + b
      {
        for y := 0 to gridHeight
          invariant Valid() && nextId == old(nextId) + x * gridHeight + y
          invariant forall a, b | 0 <= a < gridWidth && 0 <= b < gridHeight && (a < x || (a == x && b < y)) ::
            gridArray[a, b].Some? && gridArray[a, b].value.id == old(nextId) + a * gridHeight + b
        {
          AddTokenToPosInGrid(x, y);
        }
      }
    }

    /** True iff some cell is empty; returns at the first empty cell found. */
    method GridHasEmpty() returns (r: bool)
      requires Valid()
      ensures r <==> HasEmpty(Cells(), gridWidth, gridHeight)
    {
      for x := 0 to gridWidth
        invariant forall a, b | 0 <= a < x && 0 <= b < gridHeight :: gridArray[a, b].Some?
      {
        for y := 0 to gridHeight
          invariant forall a, b | 0 <= a < gridWidth && 0 <= b < gridHeight && (a < x || (a == x && b < y)) ::
            gridArray[a, b].Some?
        {
          if gridArray[x, y].None? {
            return true;
          }
        }
      }
      return false;
    }

    /** Where `token` is: the first cell holding it in column-major order, or
        (0, 0) when it is on no cell. */
    method GetPositionOfTokenInGrid(token: Token) returns (p: (int, int))
      requires Valid()
      ensures p == PositionOf(Cells(), gridWidth, gridHeight, token)
      ensures InBounds(p)
      ensures OnGrid(Cells(), gridWidth, gridHeight, token) ==>
        && gridArray[p.0, p.1] == Some(token)
        && forall a, b | 0 <= a < gridWidth && 0 <= b < gridHeight && ScanBefore((a, b), p) :: gridArray[a, b] != Some(token)
      ensures !OnGrid(Cells(), gridWidth, gridHeight, token) ==> p == (0, 0)
    {
      ghost var c := Cells();
      for x := 0 to gridWidth
        invariant FindFrom(c, gridWidth, gridHeight, token, x, 0) == FindFrom(c, gridWidth, gridHeight, token, 0, 0)
      {
        for y := 0 to gridHeight
          invariant FindFrom(c, gridWidth, gridHeight, token, x, y) == FindFrom(c, gridWidth, gridHeight, token, 0, 0)
        {
          if gridArray[x, y] == Some(token) {
            return (x, y);
          }
        }
      }
      return (0, 0);
    }

    /** Grid coordinates to world coordinates: the grid is centred on the
        origin with integer halving of the dimensions, one cell per tokenSize. */
    function GetWorldPositionFromGridPosition(x: int, y: int): (p: (real, real))
      ensures 0.0 < tokenSize ==> (p.0 < 0.0 <==> x < gridWidth / 2) && (p.0 == 0.0 <==> x == gridWidth / 2)
      ensures 0.0 < tokenSize ==> (p.1 < 0.0 <==> y < gridHeight / 2) && (p.1 == 0.0 <==> y == gridHeight / 2)
    {
      (((x - gridWidth / 2) as real) * tokenSize, ((y - gridHeight / 2) as real) * tokenSize)
    }

    /** The world map is affine: moving by (dx, dy) cells moves by
        (dx * tokenSize, dy * tokenSize), and the cell at the halved dimensions
        sits at the origin. */
    lemma WorldPositionIsAffine(x: int, y: int, dx: int, dy: int)
      ensures GetWorldPositionFromGridPosition(x + dx, y + dy).0
              == GetWorldPositionFromGridPosition(x, y).0 + (dx as real) * tokenSize
      ensures GetWorldPositionFromGridPosition(x + dx, y + dy).1
              == GetWorldPositionFromGridPosition(x, y).1 + (dy as real) * tokenSize
      ensures GetWorldPositionFromGridPosition(gridWidth / 2, gridHeight / 2) == (0.0, 0.0)
    {
      var a, b := (x - gridWidth / 2) as real, (y - gridHeight / 2) as real;
      assert (a + dx as real) * tokenSize == a * tokenSize + (dx as real) * tokenSize;
      assert (b + dy as real) * tokenSize == b * tokenSize + (dy as real) * tokenSize;
      var o := GetWorldPositionFromGridPosition(gridWidth / 2, gridHeight / 2);
      assert o.0 == 0.0 * tokenSize && o.1 == 0.0 * tokenSize;
    }

    /** With a non-zero cell size, distinct cells have distinct world positions. */
    lemma WorldPositionIsInjective(x1: int, y1: int, x2: int, y2: int)
      requires tokenSize != 0.0
      requires GetWorldPositionFromGridPosition(x1, y1) == GetWorldPositionFromGridPosition(x2, y2)
      ensures x1 == x2 && y1 == y2
    {
      WorldPositionIsAffine(x1, y1, x2 - x1, y2 - y1);
      assert ((x2 - x1) as real) * tokenSize == 0.0;
      assert ((y2 - y1) as real) * tokenSize == 0.0;
    }

    /** Creates a token of a kind chosen in [0, tokenTypes) and puts it at (x, y). */
    method AddTokenToPosInGrid(x: int, y: int)
      requires Valid() && 0 <= x < gridWidth && 0 <= y < gridHeight
      modifies this, gridArray
      ensures Valid() && nextId == old(nextId) + 1
      ensures gridArray[x, y].Some? && gridArray[x, y].value.id == old(nextId)
      ensures gridArray[x, y].value.kind < tokenTypes
      ensures Cells() == Put(old(Cells()), x, y, gridArray[x, y])
    {
      var kind :| 0 <= kind < tokenTypes;
      var token := Token(nextId, kind);
      nextId := nextId + 1;
      SetCell(x, y, Some(token));
    }
  }

  /** (a, b) is visited before p by a column-major scan (x outer, y inner). */
  predicate ScanBefore(q: (int, int), p: (int, int)) {
    q.0 < p.0 || (q.0 == p.0 && q.1 < p.1)
  }

  ghost predicate OnGrid(c: Cells, w: int, h: int, t: Token)
    requires Shaped(c, w, h)
  {
    exists x, y | 0 <= x < w && 0 <= y < h :: c[x][y] == Some(t)
  }

  /** The first cell holding `t` among those a column-major scan visits from (x, y) on. */
  function FindFrom(c: Cells, w: nat, h: nat, t: Token, x: int, y: int): (r: Option<(int, int)>)
    requires Shaped(c, w, h) && 0 <= x <= w && 0 <= y <= h
    ensures r.Some? ==>
      && 0 <= r.value.0 < w && 0 <= r.value.1 < h
      && !ScanBefore(r.value, (x, y))
      && c[r.value.0][r.value.1] == Some(t)
      && forall a, b | 0 <= a < w && 0 <= b < h && !ScanBefore((a, b), (x, y)) && ScanBefore((a, b), r.value) ::
           c[a][b] != Some(t)
    ensures r.None? ==>
      forall a, b | 0 <= a < w && 0 <= b < h && !ScanBefore((a, b), (x, y)) :: c[a][b] != Some(t)
    decreases w - x, h - y
  {
    if x == w then None
    else if y == h then FindFrom(c, w, h, t, x + 1, 0)
    else if c[x][y] == Some(t) then Some((x, y))
    else FindFrom(c, w, h, t, x, y + 1)
  }

  /** The position the grid lookup reports for `t`. */
  function PositionOf(c: Cells, w: nat, h: nat, t: Token): (p: (int, int))
    requires Shaped(c, w, h)
  {
    match FindFrom(c, w, h, t, 0, 0)
    case Some(q) => q
    case None => (0, 0)
  }
}

=== FILE: grid.dfy ===
/** Values held by the game grid: tokens, cells, whole-grid snapshots and
    the counts of the tokens a snapshot holds. A snapshot is column-major: c[x][y],
    with y = 0 the bottom row and y = height - 1 the top row. */
module Grid {

  datatype Option<T> = None | Some(value: T)

  /** A token on the board. `id` stands for the identity of the scene object
      (two tokens are the same object iff their ids are equal); `kind` stands
      for its sprite, which is what matching compares. */
  datatype Token = Token(id: nat, kind: nat)

  /** A grid slot: a token reference or null. */
  type Cell = Option<Token>

  type Cells = seq<seq<Cell>>

  /** `c` has `w` columns of `h` cells each. */
  ghost predicate Shaped(c: Cells, w: int, h: int) {
    |c| == w && forall x | 0 <= x < w :: |c[x]| == h
  }

  /** Two cells hold tokens with the same sprite. An empty cell matches nothing. */
  predicate SameKind(a: Cell, b: Cell) {
    a.Some? && b.Some? && a.value.kind == b.value.kind
  }

  /** The snapshot with cell (x, y) replaced by `v`. */
  function Put(c: Cells, x: int, y: int, v: Cell): (r: Cells)
    requires 0 <= x < |c| && 0 <= y < |c[x]|
    ensures |r| == |c| && forall a | 0 <= a < |c| :: |r[a]| == |c[a]|
    ensures r[x][y] == v
    ensures forall a, b | 0 <= a < |c| && 0 <= b < |c[a]| && (a != x || b != y) :: r[a][b] == c[a][b]
  {
    c[x := c[x][y := v]]
  }

  /** Some cell of the grid is empty. */
  ghost predicate HasEmpty(c: Cells, w: int, h: int)
    requires Shaped(c, w, h)
  {
    exists x, y | 0 <= x < w && 0 <= y < h :: c[x][y].None?
  }

  /** 1 for a cell that holds a token, 0 for an empty one. */
  function Filled(v: Cell): nat {
    if v.Some? then 1 else 0
  }

  /** 1 for a cell that holds token `t` itself, 0 otherwise. */
  function Holds(v: Cell, t: Token): nat {
    if v == Some(t) then 1 else 0
  }

  /** The number of tokens among the first k cells of a column. */
  function ColumnCount(s: seq<Cell>, k: int): nat
    requires 0 <= k <= |s|
  {
    if k == 0 then 0 else ColumnCount(s, k - 1) + Filled(s[k - 1])
  }

  /** The number of cells among the first k of a column that hold token `t`. */
  function ColumnCopies(s: seq<Cell>, t: Token, k: int): nat
    requires 0 <= k <= |s|
  {
    if k == 0 then 0 else ColumnCopies(s, t, k - 1) + Holds(s[k - 1], t)
  }

  function CountColumns(c: Cells, k: int): nat
    requires 0 <= k <= |c|
  {
    if k == 0 then 0 else CountColumns(c, k - 1) + ColumnCount(c[k - 1], |c[k - 1]|)
  }

  function CopiesColumns(c: Cells, t: Token, k: int): nat
    requires 0 <= k <= |c|
  {
    if k == 0 then 0 else CopiesColumns(c, t, k - 1) + ColumnCopies(c[k - 1], t, |c[k - 1]|)
  }

  /** The number of non-null cells of the grid. */
  function TokenCount(c: Cells): nat {
    CountColumns(c, |c|)
  }

  /** The number of cells of the grid that hold token `t`. */
  function Copies(c: Cells, t: Token): nat {
    CopiesColumns(c, t, |c|)
  }

  /** No token that `c` holds is missing from `c'`: nothing was overwritten or lost. */
  ghost predicate KeepsTokens(c: Cells, c': Cells) {
    forall t :: Copies(c, t) <= Copies(c', t)
  }

  lemma {:induction false} ColumnUpdate(s: seq<Cell>, i: int, v: Cell, t: Token, k: int)
    requires 0 <= i < |s| && 0 <= k <= |s|
    ensures k <= i ==> ColumnCount(s[i := v], k) == ColumnCount(s, k)
    ensures k <= i ==> ColumnCopies(s[i := v], t, k) == ColumnCopies(s, t, k)
    ensures i < k ==> ColumnCount(s[i := v], k) + Filled(s[i]) == ColumnCount(s, k) + Filled(v)
    ensures i < k ==> ColumnCopies(s[i := v], t, k) + Holds(s[i], t) == ColumnCopies(s, t, k) + Holds(v, t)
  {
    if k > 0 {
      ColumnUpdate(s, i, v, t, k - 1);
    }
  }

  lemma {:induction false} GridColumnUpdate(c: Cells, x: int, col: seq<Cell>, t: Token, k: int)
    requires 0 <= x < |c| && 0 <= k <= |c|
    ensures k <= x ==> CountColumns(c[x := col], k) == CountColumns(c, k)
    ensures k <= x ==> CopiesColumns(c[x := col], t, k) == CopiesColumns(c, t, k)
    ensures x < k ==> CountColumns(c[x := col], k) + ColumnCount(c[x], |c[x]|) == CountColumns(c, k) + ColumnCount(col, |col|)
    ensures x < k ==> CopiesColumns(c[x := col], t, k) + ColumnCopies(c[x], t, |c[x]|)
                      == CopiesColumns(c, t, k) + ColumnCopies(col, t, |col|)
  {
    if k > 0 {
      GridColumnUpdate(c, x, col, t, k - 1);
    }
  }

  /** Writing one cell trades the token it held for the one written, in the
      number of tokens and in the copies of every token. */
  lemma PutCounts(c: Cells, x: int, y: int, v: Cell)
    requires 0 <= x < |c| && 0 <= y < |c[x]|
    ensures TokenCount(Put(c, x, y, v)) + Filled(c[x][y]) == TokenCount(c) + Filled(v)
    ensures forall t :: Copies(Put(c, x, y, v), t) + Holds(c[x][y], t) == Copies(c, t) + Holds(v, t)
  {
    var t0 :| true;
    ColumnUpdate(c[x], y, v, t0, |c[x]|);
    GridColumnUpdate(c, x, c[x][y := v], t0, |c|);
    forall t ensures Copies(Put(c, x, y, v), t) + Holds(c[x][y], t) == Copies(c, t) + Holds(v, t) {
      ColumnUpdate(c[x], y, v, t, |c[x]|);
      GridColumnUpdate(c, x, c[x][y := v], t, |c|);
    }
  }

  /** A column in which only empty slots may have been filled keeps its tokens. */
  lemma {:induction false} ColumnKeepsTokens(s: seq<Cell>, s': seq<Cell>, t: Token, k: int)
    requires |s| == |s'| && 0 <= k <= |s|
    requires forall i | 0 <= i < |s| && s[i].Some? :: s'[i] == s[i]
    ensures ColumnCopies(s, t, k) <= ColumnCopies(s', t, k)
  {
    if k > 0 {
      ColumnKeepsTokens(s, s', t, k - 1);
    }
  }

  lemma {:induction false} GridKeepsTokensAt(c: Cells, c': Cells, w: int, h: int, t: Token, k: int)
    requires Shaped(c, w, h) && Shaped(c', w, h) && 0 <= k <= w
    requires forall x, y | 0 <= x < w && 0 <= y < h && c[x][y].Some? :: c'[x][y] == c[x][y]
    ensures CopiesColumns(c, t, k) <= CopiesColumns(c', t, k)
  {
    if k > 0 {
      ColumnKeepsTokens(c[k - 1], c'[k - 1], t, h);
      GridKeepsTokensAt(c, c', w, h, t, k - 1);
    }
  }

  /** A grid in which only empty cells changed keeps every token it held. */
  lemma FillingKeepsTokens(c: Cells, c': Cells, w: int, h: int)
    requires Shaped(c, w, h) && Shaped(c', w, h)
    requires forall x, y | 0 <= x < w && 0 <= y < h && c[x][y].Some? :: c'[x][y] == c[x][y]
    ensures KeepsTokens(c, c')
  {
    forall t ensures Copies(c, t) <= Copies(c', t) {
      GridKeepsTokensAt(c, c', w, h, t, w);
    }
  }

  /** Keeping tokens composes: what survives two steps survives both. */
  lemma KeepsTokensChain(c: Cells, c': Cells, c'': Cells)
    requires KeepsTokens(c, c') && KeepsTokens(c', c'')
    ensures KeepsTokens(c, c'')
  {
    forall t ensures Copies(c, t) <= Copies(c'', t) {
      assert Copies(c, t) <= Copies(c', t) <= Copies(c'', t);
    }
  }
}

=== FILE: input_manager.dfy ===
/** Player input: two clicks select two tokens, and the move manager is asked
    to exchange them when the selection rule allows the pair. The plain
    input manager allows neighbours; the three-apart variant allows tokens
    exactly three cells apart in a row, a column or a diagonal. */
module Input {
  import opened Grid
  import opened Game
  import opened Motion

  /** Which pairs of cells the player may exchange. */
  datatype SelectionRule = Adjacent | ExactlyThree

  function Abs(n: int): (r: nat)
    ensures r == n || r == -n
  {
    if n < 0 then -n else n
  }

  /** The distance test of a second click between the cells p1 and p2.
      Under the plain rule the second cell must be one of the four neighbours
      of the first; under the three-apart rule each offset must be -3, 0 or 3,
      not both 0. */
  predicate SwapAllowed(rule: SelectionRule, p1: (int, int), p2: (int, int)): (r: bool)
    ensures r ==> p1 != p2
    ensures rule.Adjacent? ==>
      (r <==> p2 in {(p1.0 + 1, p1.1), (p1.0 - 1, p1.1), (p1.0, p1.1 + 1), (p1.0, p1.1 - 1)})
    ensures rule.ExactlyThree? ==>
      (r <==> p1 != p2 && p2.0 - p1.0 in {-3, 0, 3} && p2.1 - p1.1 in {-3, 0, 3})
  {
    var dx, dy := Abs(p1.0 - p2.0), Abs(p1.1 - p2.1);
    match rule
    case Adjacent => dx + dy == 1
    case ExactlyThree => (dx == 3 && dy == 0) || (dx == 0 && dy == 3) || (dx == 3 && dy == 3)
  }

  /** The order of the two clicks does not matter, nor do the signs of the offsets. */
  lemma SwapAllowedIsSymmetric(rule: SelectionRule, p1: (int, int), p2: (int, int))
    ensures SwapAllowed(rule, p1, p2) <==> SwapAllowed(rule, p2, p1)
    ensures SwapAllowed(rule, p1, p2) <==> SwapAllowed(rule, (2 * p2.0 - p1.0, p1.1), p2)
    ensures SwapAllowed(rule, p1, p2) <==> SwapAllowed(rule, (p1.0, 2 * p2.1 - p1.1), p2)
  {
  }

  /** Under the three-apart rule a pair may be exchanged iff the second cell
      is one of the eight cells three steps away along a row, a column or a diagonal. */
  lemma ExactlyThreeIsLine(p1: (int, int), p2: (int, int))
    ensures SwapAllowed(ExactlyThree, p1, p2) <==>
      exists ux: int, uy: int | -1 <= ux <= 1 && -1 <= uy <= 1 && (ux, uy) != (0, 0) ::
        p2 == (p1.0 + 3 * ux, p1.1 + 3 * uy)
  {
    var dx, dy := p2.0 - p1.0, p2.1 - p1.1;
    if SwapAllowed(ExactlyThree, p1, p2) {
      var ux := if dx > 0 then 1 else if dx < 0 then -1 else 0;
      var uy := if dy > 0 then 1 else if dy < 0 then -1 else 0;
      assert p2 == (p1.0 + 3 * ux, p1.1 + 3 * uy);
    }
  }

  /** No rule lets a token be exchanged with itself, the three-apart rule
      rejects neighbours and mixed offsets such as (3, 1), and the two rules
      never allow the same pair. */
  lemma RulesDiffer(p1: (int, int), p2: (int, int))
    ensures !SwapAllowed(Adjacent, p1, p1) && !SwapAllowed(ExactlyThree, p1, p1)
    ensures SwapAllowed(Adjacent, p1, p2) ==> !SwapAllowed(ExactlyThree, p1, p2)
    ensures !SwapAllowed(ExactlyThree, p1, (p1.0 + 3, p1.1 + 1))
  {
  }

  /** The selection as the code sees it after a removal took the grid from c
      to c': a selected token that was on c and is on no cell of c' has been
      destroyed, and a destroyed object compares equal to null. */
  ghost function SelectionAfterRemoval(sel: Option<Token>, c: Cells, c': Cells, w: nat, h: nat): (r: Option<Token>)
    requires Shaped(c, w, h) && Shaped(c', w, h)
    ensures r == sel || r.None?
    ensures sel.Some? && OnGrid(c, w, h, sel.value) ==> (r == sel <==> OnGrid(c', w, h, sel.value))
  {
    if sel.Some? && OnGrid(c, w, h, sel.value) && !OnGrid(c', w, h, sel.value) then None else sel
  }

  /** Documented as returning x plus y; it returns x minus y. */
  function CommentFunc(x: int, y: int): (r: int)
    ensures r + y == x
    ensures r == x + y <==> y == 0
  {
    x - y
  }

  class InputManager {
    const rule: SelectionRule
    const gameManager: GameManager
    const moveManager: MoveTokens
    /** The token clicked first, if any. */
    var selected: Option<Token>

    ghost predicate Valid()
      reads this, moveManager, gameManager, gameManager.gridArray
    {
      && moveManager.gameManager == gameManager
      && moveManager.Valid()
      && (selected.Some? ==> gameManager.Issued(selected.value))
    }

    /** Whether the selected token is still on some cell: the lookup's cell
        holds it exactly when it is anywhere on the grid. */
    method SelectedOnGrid() returns (r: bool)
      requires Valid()
      ensures r <==> selected.Some? && OnGrid(gameManager.Cells(), gameManager.gridWidth, gameManager.gridHeight, selected.value)
    {
      if selected.None? {
        return false;
      }
      var p := gameManager.GetPositionOfTokenInGrid(selected.value);
      r := gameManager.gridArray[p.0, p.1] == selected;
    }

    /** Start: nothing is selected. */
    constructor (r: SelectionRule, gm: GameManager, mover: MoveTokens)
      requires mover.gameManager == gm && mover.Valid()
      ensures Valid() && rule == r && gameManager == gm && moveManager == mover && selected.None?
    {
      rule, gameManager, moveManager := r, gm, mover;
      selected := None;
    }

    /** One poll of the mouse. `click` is the token under a new click, or
        None when there was no click or nothing under it. A first click
        selects; a second looks both tokens up in the grid, asks for a
        reversible exchange when the rule allows the pair, and deselects. */
    method SelectToken(click: Option<Token>)
      requires Valid()
      requires click.Some? ==> gameManager.Issued(click.value)
      modifies this`selected, moveManager
      ensures Valid()
      ensures gameManager.Cells() == old(gameManager.Cells())
      ensures click.None? ==> selected == old(selected) && unchanged(moveManager)
      ensures click.Some? && old(selected).None? ==> selected == click && unchanged(moveManager)
      ensures click.Some? && old(selected).Some? ==> selected.None?
      ensures click.Some? && old(selected).Some? ==>
        var c := gameManager.Cells();
        var p1 := PositionOf(c, gameManager.gridWidth, gameManager.gridHeight, old(selected).value);
        var p2 := PositionOf(c, gameManager.gridWidth, gameManager.gridHeight, click.value);
        if SwapAllowed(rule, p1, p2) then
          && moveManager.move && moveManager.lerpPercent == 0.0 && moveManager.userSwap
          && moveManager.exchangeToken1 == old(selected) && moveManager.exchangeToken2 == click
          && moveManager.exchangeGridPos1 == p1 && moveManager.exchangeGridPos2 == p2
        else
          unchanged(moveManager)
    {
      if click.Some? {
        if selected.None? {
          selected := click;
        } else {
          var pos1 := gameManager.GetPositionOfTokenInGrid(selected.value);
          var pos2 := gameManager.GetPositionOfTokenInGrid(click.value);
          if SwapAllowed(rule, pos1, pos2) {
            moveManager.SetupTokenExchange(selected.value, pos1, click.value, pos2, true);
          }
          selected := None;
        }
      }
    }
  }
}

=== FILE: match_manager.dfy ===
/** Match detection and removal: three-in-a-row checks, run lengths to the
    right and upward, and the two-pass removal of every run of three or more. */
module Matches {
  import opened Grid
  import opened Game

  /** Three cells hold tokens of one kind. */
  predicate ThreeAlike(a: Cell, b: Cell, d: Cell) {
    SameKind(a, b) && SameKind(b, d)
  }

  predicate HorizontalMatchAt(c: Cells, w: nat, h: nat, x: int, y: int)
    requires Shaped(c, w, h) && 0 <= x && x + 2 < w && 0 <= y < h
  {
    ThreeAlike(c[x][y], c[x + 1][y], c[x + 2][y])
  }

  predicate VerticalMatchAt(c: Cells, w: nat, h: nat, x: int, y: int)
    requires Shaped(c, w, h) && 0 <= x < w && 0 <= y && y + 2 < h
  {
    ThreeAlike(c[x][y], c[x][y + 1], c[x][y + 2])
  }

  /** A run of three starts at (x, y), rightward or upward, within the grid. */
  predicate MatchStartsAt(c: Cells, w: nat, h: nat, x: int, y: int)
    requires Shaped(c, w, h) && 0 <= x < w && 0 <= y < h
  {
    (x + 2 < w && HorizontalMatchAt(c, w, h, x, y)) || (y + 2 < h && VerticalMatchAt(c, w, h, x, y))
  }

  /** The grid holds a run of three somewhere. */
  ghost predicate HasMatch(c: Cells, w: nat, h: nat)
    requires Shaped(c, w, h)
  {
    exists x, y | 0 <= x < w && 0 <= y < h :: MatchStartsAt(c, w, h, x, y)
  }

  /** How many cells from column i rightward continue the run that starts at (x, y). */
  function RunRight(c: Cells, w: nat, h: nat, x: int, y: int, i: int): (n: nat)
    requires Shaped(c, w, h) && 0 <= x < w && 0 <= y < h && x < i <= w
    ensures i + n <= w
    ensures forall j | i <= j < i + n :: SameKind(c[x][y], c[j][y])
    ensures i + n == w || !SameKind(c[x][y], c[i + n][y])
    decreases w - i
  {
    if i < w && SameKind(c[x][y], c[i][y]) then 1 + RunRight(c, w, h, x, y, i + 1) else 0
  }

  /** The length of the horizontal run that starts at (x, y): the start cell
      and every following cell up to the first empty or different one. */
  function HorizontalRunLength(c: Cells, w: nat, h: nat, x: int, y: int): (n: nat)
    requires Shaped(c, w, h) && 0 <= x < w && 0 <= y < h
    ensures 1 <= n <= w - x
    ensures c[x][y].None? ==> n == 1
    ensures c[x][y].Some? ==> forall j | x <= j < x + n :: SameKind(c[x][y], c[j][y])
    ensures c[x][y].Some? && x + n < w ==> !SameKind(c[x][y], c[x + n][y])
    ensures x + 2 < w ==> (n >= 3 <==> HorizontalMatchAt(c, w, h, x, y))
  {
    var n := 1 + RunRight(c, w, h, x, y, x + 1);
    assert x + 2 < w && n < 3 ==> !SameKind(c[x][y], c[x + n][y]);
    n
  }

  /** How many cells from row i upward, below row `bound`, continue the run that starts at (x, y). */
  function RunUp(c: Cells, w: nat, h: nat, x: int, y: int, i: int, bound: int): (n: nat)
    requires Shaped(c, w, h) && 0 <= x < w && 0 <= y < h && y < i && bound <= h
    ensures i <= bound ==> i + n <= bound
    ensures i > bound ==> n == 0
    ensures forall j | i <= j < i + n :: SameKind(c[x][y], c[x][j])
    ensures i + n < bound ==> !SameKind(c[x][y], c[x][i + n])
    decreases bound - i
  {
    if i < bound && SameKind(c[x][y], c[x][i]) then 1 + RunUp(c, w, h, x, y, i + 1, bound) else 0
  }

  /** The length of the vertical run that starts at (x, y), scanning upward
      while the row index is below `bound`. The source scans below the grid
      WIDTH; the true upward run is the one with bound == h. */
  function VerticalRunLength(c: Cells, w: nat, h: nat, x: int, y: int, bound: int): (n: nat)
    requires Shaped(c, w, h) && 0 <= x < w && 0 <= y < h && bound <= h
    ensures 1 <= n && y + n <= h
    ensures y < bound ==> y + n <= bound
    ensures y >= bound ==> n == 1
    ensures c[x][y].None? ==> n == 1
    ensures c[x][y].Some? ==> forall j | y <= j < y + n :: SameKind(c[x][y], c[x][j])
    ensures c[x][y].Some? && y + n < bound ==> !SameKind(c[x][y], c[x][y + n])
    ensures y + 2 < h && n >= 3 ==> VerticalMatchAt(c, w, h, x, y)
    ensures y + 2 < h && bound == h ==> (n >= 3 <==> VerticalMatchAt(c, w, h, x, y))
  {
    var n := 1 + RunUp(c, w, h, x, y, y + 1, bound);
    assert y + 2 < bound && n < 3 ==> !SameKind(c[x][y], c[x][y + n]);
    n
  }

  /** The upward scan stopped at `bound` is the full upward run cut off at `bound`. */
  lemma {:induction false} RunUpCapped(c: Cells, w: nat, h: nat, x: int, y: int, i: int, bound: int)
    requires Shaped(c, w, h) && 0 <= x < w && 0 <= y < h && y < i <= h && bound <= h
    ensures RunUp(c, w, h, x, y, i, bound) == Min(RunUp(c, w, h, x, y, i, h), Max(0, bound - i))
    decreases h - i
  {
    if i < bound && SameKind(c[x][y], c[x][i]) {
      RunUpCapped(c, w, h, x, y, i + 1, bound);
    }
  }

  /** What the width-bounded vertical scan reports, against the true upward
      run: the true run cut off at row `bound`. On a square grid the two agree. */
  lemma VerticalScanTruncates(c: Cells, w: nat, h: nat, x: int, y: int, bound: int)
    requires Shaped(c, w, h) && 0 <= x < w && 0 <= y < h && bound <= h
    ensures VerticalRunLength(c, w, h, x, y, bound) == Min(VerticalRunLength(c, w, h, x, y, h), Max(1, bound - y))
  {
    RunUpCapped(c, w, h, x, y, y + 1, bound);
  }

  function Min(a: int, b: int): int { if a <= b then a else b }
  function Max(a: int, b: int): int { if a <= b then b else a }

  /** The state of the removal scan: the grid so far and how many tokens it destroyed. */
  datatype Removal = Removal(cells: Cells, removed: nat)

  /** Nulls the `len` cells of row y starting at column x, left to right. */
  function ClearRow(c: Cells, w: nat, h: nat, x: int, y: int, len: nat): (r: Cells)
    requires Shaped(c, w, h) && 0 <= x && x + len <= w && 0 <= y < h
    ensures Shaped(r, w, h)
    ensures forall a, b | 0 <= a < w && 0 <= b < h ::
      r[a][b] == if b == y && x <= a < x + len then None else c[a][b]
    decreases len
  {
    if len == 0 then c else ClearRow(Put(c, x, y, None), w, h, x + 1, y, len - 1)
  }

  /** Nulls the `len` cells of column x starting at row y, bottom to top. */
  function ClearColumn(c: Cells, w: nat, h: nat, x: int, y: int, len: nat): (r: Cells)
    requires Shaped(c, w, h) && 0 <= x < w && 0 <= y && y + len <= h
    ensures Shaped(r, w, h)
    ensures forall a, b | 0 <= a < w && 0 <= b < h ::
      r[a][b] == if a == x && y <= b < y + len then None else c[a][b]
    decreases len
  {
    if len == 0 then c else ClearColumn(Put(c, x, y, None), w, h, x, y + 1, len - 1)
  }

  /** The horizontal check at one scan position: a run longer than two that
      starts below column w - 2 is nulled and its length counted. */
  function HorizontalStep(c: Cells, w: nat, h: nat, x: int, y: int): (r: Removal)
    requires Shaped(c, w, h) && 0 <= x < w && 0 <= y < h
    ensures Shaped(r.cells, w, h)
  {
    if x + 2 < w && HorizontalRunLength(c, w, h, x, y) > 2 then
      var len := HorizontalRunLength(c, w, h, x, y);
      Removal(ClearRow(c, w, h, x, y, len), len)
    else Removal(c, 0)
  }

  /** The vertical check at one scan position, with runs measured up to row `bound`. */
  function VerticalStep(c: Cells, w: nat, h: nat, bound: int, x: int, y: int): (r: Removal)
    requires Shaped(c, w, h) && bound <= h && 0 <= x < w && 0 <= y < h
    ensures Shaped(r.cells, w, h)
  {
    if y + 2 < h && VerticalRunLength(c, w, h, x, y, bound) > 2 then
      var len := VerticalRunLength(c, w, h, x, y, bound);
      Removal(ClearColumn(c, w, h, x, y, len), len)
    else Removal(c, 0)
  }

  /** The horizontal pass of RemoveMatches from scan position (x, y) on,
      columns outer and rows inner, with n tokens counted so far. */
  function HorizontalPass(c: Cells, w: nat, h: nat, x: int, y: int, n: nat): (r: Removal)
    requires Shaped(c, w, h) && 0 <= x <= w && 0 <= y <= h
    ensures Shaped(r.cells, w, h)
    decreases w - x, h - y
  {
    if x == w then Removal(c, n)
    else if y == h then HorizontalPass(c, w, h, x + 1, 0, n)
    else
      var s := HorizontalStep(c, w, h, x, y);
      HorizontalPass(s.cells, w, h, x, y + 1, n + s.removed)
  }

  /** The vertical pass of RemoveMatches from scan position (row y, column x)
      on, rows outer and columns inner. */
  function VerticalPass(c: Cells, w: nat, h: nat, bound: int, y: int, x: int, n: nat): (r: Removal)
    requires Shaped(c, w, h) && bound <= h && 0 <= y <= h && 0 <= x <= w
    ensures Shaped(r.cells, w, h)
    decreases h - y, w - x
  {
    if y == h then Removal(c, n)
    else if x == w then VerticalPass(c, w, h, bound, y + 1, 0, n)
    else
      var s := VerticalStep(c, w, h, bound, x, y);
      VerticalPass(s.cells, w, h, bound, y, x + 1, n + s.removed)
  }

  /** Both passes of RemoveMatches: the grid afterwards and the count it returns. */
  function RemovalOf(c: Cells, w: nat, h: nat, bound: int): (r: Removal)
    requires Shaped(c, w, h) && bound <= h
    ensures Shaped(r.cells, w, h)
  {
    var hp := HorizontalPass(c, w, h, 0, 0, 0);
    VerticalPass(hp.cells, w, h, bound, 0, 0, hp.removed)
  }

  /** `c'` is `c` with some tokens removed and nothing else changed. */
  ghost predicate Cleared(c: Cells, c': Cells, w: nat, h: nat)
    requires Shaped(c, w, h) && Shaped(c', w, h)
  {
    forall x, y | 0 <= x < w && 0 <= y < h :: c'[x][y] == c[x][y] || c'[x][y].None?
  }

  /** Emptying a cell that holds a token lowers the token count by one. */
  lemma EmptyingCounts(c: Cells, x: int, y: int)
    requires 0 <= x < |c| && 0 <= y < |c[x]| && c[x][y].Some?
    ensures TokenCount(Put(c, x, y, None)) + 1 == TokenCount(c)
  {
    PutCounts(c, x, y, None);
  }

  lemma {:induction false} ClearRowAccounting(c: Cells, w: nat, h: nat, x: int, y: int, len: nat)
    requires Shaped(c, w, h) && 0 <= x && x + len <= w && 0 <= y < h
    requires forall a | x <= a < x + len :: c[a][y].Some?
    ensures TokenCount(ClearRow(c, w, h, x, y, len)) + len == TokenCount(c)
    decreases len
  {
    if len > 0 {
      var c1 := Put(c, x, y, None);
      EmptyingCounts(c, x, y);
      ClearRowAccounting(c1, w, h, x + 1, y, len - 1);
      assert ClearRow(c, w, h, x, y, len) == ClearRow(c1, w, h, x + 1, y, len - 1);
    }
  }

  lemma {:induction false} ClearColumnAccounting(c: Cells, w: nat, h: nat, x: int, y: int, len: nat)
    requires Shaped(c, w, h) && 0 <= x < w && 0 <= y && y + len <= h
    requires forall b | y <= b < y + len :: c[x][b].Some?
    ensures TokenCount(ClearColumn(c, w, h, x, y, len)) + len == TokenCount(c)
    decreases len
  {
    if len > 0 {
      var c1 := Put(c, x, y, None);
      EmptyingCounts(c, x, y);
      ClearColumnAccounting(c1, w, h, x, y + 1, len - 1);
      assert ClearColumn(c, w, h, x, y, len) == ClearColumn(c1, w, h, x, y + 1, len - 1);
    }
  }

  /** What a removal pass may do from a scan position on: only null tokens,
      count each nulled token once, and count nothing or at least three. */
  ghost predicate Accounted(c: Cells, w: nat, h: nat, n: nat, r: Removal)
    requires Shaped(c, w, h) && Shaped(r.cells, w, h)
  {
    && Cleared(c, r.cells, w, h)
    && r.removed + TokenCount(r.cells) == n + TokenCount(c)
    && (r.removed == n ==> r.cells == c)
    && (r.removed != n ==> r.removed >= n + 3)
  }

  /** An accounted step followed by an accounted rest of the pass is accounted. */
  lemma AccountedChain(c: Cells, w: nat, h: nat, n: nat, s: Removal, r: Removal)
    requires Shaped(c, w, h) && Shaped(s.cells, w, h) && Shaped(r.cells, w, h)
    requires Accounted(c, w, h, 0, s) && Accounted(s.cells, w, h, n + s.removed, r)
    ensures Accounted(c, w, h, n, r)
  {
  }

  lemma HorizontalStepAccounted(c: Cells, w: nat, h: nat, x: int, y: int)
    requires Shaped(c, w, h) && 0 <= x < w && 0 <= y < h
    ensures Accounted(c, w, h, 0, HorizontalStep(c, w, h, x, y))
  {
    if x + 2 < w && HorizontalRunLength(c, w, h, x, y) > 2 {
      var len := HorizontalRunLength(c, w, h, x, y);
      ClearRowAccounting(c, w, h, x, y, len);
      assert ClearRow(c, w, h, x, y, len)[x][y] != c[x][y];
    }
  }

  lemma VerticalStepAccounted(c: Cells, w: nat, h: nat, bound: int, x: int, y: int)
    requires Shaped(c, w, h) && bound <= h && 0 <= x < w && 0 <= y < h
    ensures Accounted(c, w, h, 0, VerticalStep(c, w, h, bound, x, y))
  {
    if y + 2 < h && VerticalRunLength(c, w, h, x, y, bound) > 2 {
      var len := VerticalRunLength(c, w, h, x, y, bound);
      ClearColumnAccounting(c, w, h, x, y, len);
      assert ClearColumn(c, w, h, x, y, len)[x][y] != c[x][y];
    }
  }

  /** One scan position of the horizontal pass keeps the pass accounted. */
  lemma HorizontalPassStep(c: Cells, w: nat, h: nat, x: int, y: int, n: nat)
    requires Shaped(c, w, h) && 0 <= x < w && 0 <= y < h
    requires var s := HorizontalStep(c, w, h, x, y);
      Accounted(s.cells, w, h, n + s.removed, HorizontalPass(s.cells, w, h, x, y + 1, n + s.removed))
    ensures Accounted(c, w, h, n, HorizontalPass(c, w, h, x, y, n))
  {
    var s := HorizontalStep(c, w, h, x, y);
    assert HorizontalPass(c, w, h, x, y, n) == HorizontalPass(s.cells, w, h, x, y + 1, n + s.removed);
    HorizontalStepAccounted(c, w, h, x, y);
    AccountedChain(c, w, h, n, s, HorizontalPass(s.cells, w, h, x, y + 1, n + s.removed));
  }

  lemma {:induction false} HorizontalPassAccounting(c: Cells, w: nat, h: nat, x: int, y: int, n: nat)
    requires Shaped(c, w, h) && 0 <= x <= w && 0 <= y <= h
    ensures Accounted(c, w, h, n, HorizontalPass(c, w, h, x, y, n))
    decreases w - x, h - y
  {
    if x == w {
    } else if y == h {
      assert HorizontalPass(c, w, h, x, y, n) == HorizontalPass(c, w, h, x + 1, 0, n);
      HorizontalPassAccounting(c, w, h, x + 1, 0, n);
    } else {
      var s := HorizontalStep(c, w, h, x, y);
      HorizontalPassAccounting(s.cells, w, h, x, y + 1, n + s.removed);
      HorizontalPassStep(c, w, h, x, y, n);
    }
  }

  /** One scan position of the vertical pass keeps the pass accounted. */
  lemma VerticalPassStep(c: Cells, w: nat, h: nat, bound: int, y: int, x: int, n: nat)
    requires Shaped(c, w, h) && bound <= h && 0 <= y < h && 0 <= x < w
    requires var s := VerticalStep(c, w, h, bound, x, y);
      Accounted(s.cells, w, h, n + s.removed, VerticalPass(s.cells, w, h, bound, y, x + 1, n + s.removed))
    ensures Accounted(c, w, h, n, VerticalPass(c, w, h, bound, y, x, n))
  {
    var s := VerticalStep(c, w, h, bound, x, y);
    assert VerticalPass(c, w, h, bound, y, x, n) == VerticalPass(s.cells, w, h, bound, y, x + 1, n + s.removed);
    VerticalStepAccounted(c, w, h, bound, x, y);
    AccountedChain(c, w, h, n, s, VerticalPass(s.cells, w, h, bound, y, x + 1, n + s.removed));
  }

  lemma {:induction false} VerticalPassAccounting(c: Cells, w: nat, h: nat, bound: int, y: int, x: int, n: nat)
    requires Shaped(c, w, h) && bound <= h && 0 <= y <= h && 0 <= x <= w
    ensures Accounted(c, w, h, n, VerticalPass(c, w, h, bound, y, x, n))
    decreases h - y, w - x
  {
    if y == h {
    } else if x == w {
      assert VerticalPass(c, w, h, bound, y, x, n) == VerticalPass(c, w, h, bound, y + 1, 0, n);
      VerticalPassAccounting(c, w, h, bound, y + 1, 0, n);
    } else {
      var s := VerticalStep(c, w, h, bound, x, y);
      VerticalPassAccounting(s.cells, w, h, bound, y, x + 1, n + s.removed);
      VerticalPassStep(c, w, h, bound, y, x, n);
    }
  }

  /** RemoveMatches only turns tokens into empty cells, and the count it
      returns is exactly the drop in the number of tokens: a cell nulled by
      the horizontal pass is empty when the vertical pass reaches it, so no
      token is counted twice. The count is 0, with the grid unchanged, or at
      least 3. */
  lemma RemovalAccounting(c: Cells, w: nat, h: nat, bound: int)
    requires Shaped(c, w, h) && bound <= h
    ensures Cleared(c, RemovalOf(c, w, h, bound).cells, w, h)
    ensures RemovalOf(c, w, h, bound).removed + TokenCount(RemovalOf(c, w, h, bound).cells) == TokenCount(c)
    ensures RemovalOf(c, w, h, bound).removed == 0 ==> RemovalOf(c, w, h, bound).cells == c
    ensures RemovalOf(c, w, h, bound).removed == 0 || RemovalOf(c, w, h, bound).removed >= 3
  {
    var hp := HorizontalPass(c, w, h, 0, 0, 0);
    HorizontalPassAccounting(c, w, h, 0, 0, 0);
    VerticalPassAccounting(hp.cells, w, h, bound, 0, 0, hp.removed);
  }

  /** No horizontal scan position fires: every run that could start a
      horizontal match is at most two long. */
  ghost predicate HorizontallyQuiet(c: Cells, w: nat, h: nat)
    requires Shaped(c, w, h)
  {
    forall x, y | 0 <= x && x + 2 < w && 0 <= y < h :: HorizontalRunLength(c, w, h, x, y) <= 2
  }

  /** No vertical scan position fires, runs measured up to row `bound`. */
  ghost predicate VerticallyQuiet(c: Cells, w: nat, h: nat, bound: int)
    requires Shaped(c, w, h) && bound <= h
  {
    forall x, y | 0 <= x < w && 0 <= y && y + 2 < h :: VerticalRunLength(c, w, h, x, y, bound) <= 2
  }

  lemma {:induction false} HorizontalPassIdle(c: Cells, w: nat, h: nat, x: int, y: int, n: nat)
    requires Shaped(c, w, h) && 0 <= x <= w && 0 <= y <= h && HorizontallyQuiet(c, w, h)
    ensures HorizontalPass(c, w, h, x, y, n) == Removal(c, n)
    decreases w - x, h - y
  {
    if x == w {
    } else if y == h {
      HorizontalPassIdle(c, w, h, x + 1, 0, n);
    } else {
      HorizontalPassIdle(c, w, h, x, y + 1, n);
    }
  }

  lemma {:induction false} VerticalPassIdle(c: Cells, w: nat, h: nat, bound: int, y: int, x: int, n: nat)
    requires Shaped(c, w, h) && bound <= h && 0 <= y <= h && 0 <= x <= w && VerticallyQuiet(c, w, h, bound)
    ensures VerticalPass(c, w, h, bound, y, x, n) == Removal(c, n)
    decreases h - y, w - x
  {
    if y == h {
    } else if x == w {
      VerticalPassIdle(c, w, h, bound, y + 1, 0, n);
    } else {
      VerticalPassIdle(c, w, h, bound, y, x + 1, n);
    }
  }

  /** When no scan position fires, RemoveMatches changes nothing and returns 0. */
  lemma QuietRemovalIsNoOp(c: Cells, w: nat, h: nat, bound: int)
    requires Shaped(c, w, h) && bound <= h
    requires HorizontallyQuiet(c, w, h) && VerticallyQuiet(c, w, h, bound)
    ensures RemovalOf(c, w, h, bound) == Removal(c, 0)
  {
    HorizontalPassIdle(c, w, h, 0, 0, 0);
    VerticalPassIdle(c, w, h, bound, 0, 0, 0);
  }

  /** On a grid without a run of three, RemoveMatches changes nothing and
      returns 0, whatever bound the vertical scan uses. */
  lemma RemovalWithoutMatchIsNoOp(c: Cells, w: nat, h: nat, bound: int)
    requires Shaped(c, w, h) && bound <= h && !HasMatch(c, w, h)
    ensures RemovalOf(c, w, h, bound) == Removal(c, 0)
  {
    forall x, y | 0 <= x && x + 2 < w && 0 <= y < h
      ensures HorizontalRunLength(c, w, h, x, y) <= 2
    {
      assert !MatchStartsAt(c, w, h, x, y);
    }
    forall x, y | 0 <= x < w && 0 <= y && y + 2 < h
      ensures VerticalRunLength(c, w, h, x, y, bound) <= 2
    {
      assert !MatchStartsAt(c, w, h, x, y);
    }
    QuietRemovalIsNoOp(c, w, h, bound);
  }

  /** No horizontal match starts at a position the column-major scan visits before (x, y). */
  ghost predicate NoHorizontalMatchBefore(c: Cells, w: nat, h: nat, x: int, y: int)
    requires Shaped(c, w, h)
  {
    forall a, b | 0 <= a && a + 2 < w && 0 <= b < h && ScanBefore((a, b), (x, y)) :: !HorizontalMatchAt(c, w, h, a, b)
  }

  /** No vertical match starts at a position the row-major scan visits before (row y, column x). */
  ghost predicate NoVerticalMatchBefore(c: Cells, w: nat, h: nat, y: int, x: int)
    requires Shaped(c, w, h)
  {
    forall a, b | 0 <= a < w && 0 <= b && b + 2 < h && ScanBefore((b, a), (y, x)) :: !VerticalMatchAt(c, w, h, a, b)
  }

  ghost predicate NoHorizontalMatch(c: Cells, w: nat, h: nat)
    requires Shaped(c, w, h)
  {
    forall a, b | 0 <= a && a + 2 < w && 0 <= b < h :: !HorizontalMatchAt(c, w, h, a, b)
  }

  ghost predicate NoVerticalMatch(c: Cells, w: nat, h: nat)
    requires Shaped(c, w, h)
  {
    forall a, b | 0 <= a < w && 0 <= b && b + 2 < h :: !VerticalMatchAt(c, w, h, a, b)
  }

  /** Removing tokens never creates a match. */
  lemma ClearingCreatesNoMatch(c: Cells, c': Cells, w: nat, h: nat)
    requires Shaped(c, w, h) && Shaped(c', w, h) && Cleared(c, c', w, h)
    ensures forall a, b | 0 <= a && a + 2 < w && 0 <= b < h ::
      HorizontalMatchAt(c', w, h, a, b) ==> HorizontalMatchAt(c, w, h, a, b)
    ensures forall a, b | 0 <= a < w && 0 <= b && b + 2 < h ::
      VerticalMatchAt(c', w, h, a, b) ==> VerticalMatchAt(c, w, h, a, b)
  {
  }

  /** After its step, no horizontal match starts at the scan position. */
  lemma HorizontalStepClears(c: Cells, w: nat, h: nat, x: int, y: int)
    requires Shaped(c, w, h) && 0 <= x && x + 2 < w && 0 <= y < h
    ensures !HorizontalMatchAt(HorizontalStep(c, w, h, x, y).cells, w, h, x, y)
  {
    if HorizontalRunLength(c, w, h, x, y) > 2 {
      assert HorizontalStep(c, w, h, x, y).cells[x][y].None?;
    }
  }

  /** After its step with the full-height bound, no vertical match starts at the scan position. */
  lemma VerticalStepClears(c: Cells, w: nat, h: nat, x: int, y: int)
    requires Shaped(c, w, h) && 0 <= x < w && 0 <= y && y + 2 < h
    ensures !VerticalMatchAt(VerticalStep(c, w, h, h, x, y).cells, w, h, x, y)
  {
    if VerticalRunLength(c, w, h, x, y, h) > 2 {
      assert VerticalStep(c, w, h, h, x, y).cells[x][y].None?;
    }
  }

  lemma HorizontalStepKeepsClear(c: Cells, w: nat, h: nat, x: int, y: int)
    requires Shaped(c, w, h) && 0 <= x < w && 0 <= y < h
    requires NoHorizontalMatchBefore(c, w, h, x, y)
    ensures NoHorizontalMatchBefore(HorizontalStep(c, w, h, x, y).cells, w, h, x, y + 1)
  {
    HorizontalStepAccounted(c, w, h, x, y);
    ClearingCreatesNoMatch(c, HorizontalStep(c, w, h, x, y).cells, w, h);
    if x + 2 < w {
      HorizontalStepClears(c, w, h, x, y);
    }
  }

  lemma VerticalStepKeepsClear(c: Cells, w: nat, h: nat, x: int, y: int)
    requires Shaped(c, w, h) && 0 <= x < w && 0 <= y < h
    requires NoVerticalMatchBefore(c, w, h, y, x)
    ensures NoVerticalMatchBefore(VerticalStep(c, w, h, h, x, y).cells, w, h, y, x + 1)
  {
    VerticalStepAccounted(c, w, h, h, x, y);
    ClearingCreatesNoMatch(c, VerticalStep(c, w, h, h, x, y).cells, w, h);
    if y + 2 < h {
      VerticalStepClears(c, w, h, x, y);
    }
  }

  lemma {:induction false} HorizontalPassClears(c: Cells, w: nat, h: nat, x: int, y: int, n: nat)
    requires Shaped(c, w, h) && 0 <= x <= w && 0 <= y <= h
    requires NoHorizontalMatchBefore(c, w, h, x, y)
    ensures NoHorizontalMatch(HorizontalPass(c, w, h, x, y, n).cells, w, h)
    decreases w - x, h - y
  {
    if x == w {
    } else if y == h {
      assert HorizontalPass(c, w, h, x, y, n) == HorizontalPass(c, w, h, x + 1, 0, n);
      HorizontalPassClears(c, w, h, x + 1, 0, n);
    } else {
      var s := HorizontalStep(c, w, h, x, y);
      assert HorizontalPass(c, w, h, x, y, n) == HorizontalPass(s.cells, w, h, x, y + 1, n + s.removed);
      HorizontalStepKeepsClear(c, w, h, x, y);
      HorizontalPassClears(s.cells, w, h, x, y + 1, n + s.removed);
    }
  }

  lemma {:induction false} VerticalPassClears(c: Cells, w: nat, h: nat, y: int, x: int, n: nat)
    requires Shaped(c, w, h) && 0 <= y <= h && 0 <= x <= w
    requires NoVerticalMatchBefore(c, w, h, y, x)
    ensures NoVerticalMatch(VerticalPass(c, w, h, h, y, x, n).cells, w, h)
    decreases h - y, w - x
  {
    if y == h {
    } else if x == w {
      assert VerticalPass(c, w, h, h, y, x, n) == VerticalPass(c, w, h, h, y + 1, 0, n);
      VerticalPassClears(c, w, h, y + 1, 0, n);
    } else {
      var s := VerticalStep(c, w, h, h, x, y);
      assert VerticalPass(c, w, h, h, y, x, n) == VerticalPass(s.cells, w, h, h, y, x + 1, n + s.removed);
      VerticalStepKeepsClear(c, w, h, x, y);
      VerticalPassClears(s.cells, w, h, y, x + 1, n + s.removed);
    }
  }

  /** Whatever bound the vertical scan uses, no horizontal run of three survives RemoveMatches. */
  lemma RemovalClearsHorizontalRuns(c: Cells, w: nat, h: nat, bound: int)
    requires Shaped(c, w, h) && bound <= h
    ensures NoHorizontalMatch(RemovalOf(c, w, h, bound).cells, w, h)
  {
    var hp := HorizontalPass(c, w, h, 0, 0, 0);
    HorizontalPassClears(c, w, h, 0, 0, 0);
    VerticalPassAccounting(hp.cells, w, h, bound, 0, 0, hp.removed);
    ClearingCreatesNoMatch(hp.cells, RemovalOf(c, w, h, bound).cells, w, h);
  }

  /** With the upward scan bounded by the grid height, no run of three in
      either direction survives RemoveMatches. */
  lemma RemovalClearsAllRuns(c: Cells, w: nat, h: nat)
    requires Shaped(c, w, h)
    ensures !HasMatch(RemovalOf(c, w, h, h).cells, w, h)
  {
    var hp := HorizontalPass(c, w, h, 0, 0, 0);
    var r := RemovalOf(c, w, h, h);
    RemovalClearsHorizontalRuns(c, w, h, h);
    VerticalPassClears(hp.cells, w, h, 0, 0, hp.removed);
  }

  /** With the upward scan bounded by the grid height, RemoveMatches removes
      at least three tokens exactly when the grid holds a run of three, and
      none otherwise. */
  lemma RemovalRemovesIffMatch(c: Cells, w: nat, h: nat)
    requires Shaped(c, w, h)
    ensures HasMatch(c, w, h) <==> RemovalOf(c, w, h, h).removed >= 3
    ensures !HasMatch(c, w, h) ==> RemovalOf(c, w, h, h).removed == 0
  {
    RemovalAccounting(c, w, h, h);
    RemovalClearsAllRuns(c, w, h);
    if !HasMatch(c, w, h) {
      RemovalWithoutMatchIsNoOp(c, w, h, h);
    }
  }

  /** A 3-wide, 4-high grid whose only run is vertical, in rows 1 to 3 of
      column 0. Scanning upward only below row 3 (the width), the run looks
      two long, so RemoveMatches removes nothing although a match exists. */
  lemma TallGridStall()
    ensures var c := StallGrid();
      Shaped(c, 3, 4) && HasMatch(c, 3, 4) && RemovalOf(c, 3, 4, 3) == Removal(c, 0)
  {
    var c := StallGrid();
    assert MatchStartsAt(c, 3, 4, 0, 1);
    forall x, y | 0 <= x && x + 2 < 3 && 0 <= y < 4
      ensures HorizontalRunLength(c, 3, 4, x, y) <= 2
    {
      assert !SameKind(c[0][y], c[1][y]);
    }
    forall x, y | 0 <= x < 3 && 0 <= y && y + 2 < 4
      ensures VerticalRunLength(c, 3, 4, x, y, 3) <= 2
    {
      assert !SameKind(c[x][y], c[x][y + 1]) || (x == 0 && y == 1);
    }
    QuietRemovalIsNoOp(c, 3, 4, 3);
  }

  /** Columns bottom to top: A B B B | C D C D | D C D C, kinds A = 0 .. D = 3. */
  function StallGrid(): (c: Cells)
    ensures Shaped(c, 3, 4)
  {
    [ [Some(Token(0, 0)), Some(Token(1, 1)), Some(Token(2, 1)), Some(Token(3, 1))],
      [Some(Token(4, 2)), Some(Token(5, 3)), Some(Token(6, 2)), Some(Token(7, 3))],
      [Some(Token(8, 3)), Some(Token(9, 2)), Some(Token(10, 3)), Some(Token(11, 2))] ]
  }

  lemma ClearRowUnfolds(c: Cells, w: nat, h: nat, x: int, y: int, len: nat)
    requires Shaped(c, w, h) && 0 <= x && x + len <= w && 0 <= y < h
    ensures len > 0 ==> ClearRow(c, w, h, x, y, len) == ClearRow(Put(c, x, y, None), w, h, x + 1, y, len - 1)
    ensures len == 0 ==> ClearRow(c, w, h, x, y, len) == c
  {
  }

  lemma ClearColumnUnfolds(c: Cells, w: nat, h: nat, x: int, y: int, len: nat)
    requires Shaped(c, w, h) && 0 <= x < w && 0 <= y && y + len <= h
    ensures len > 0 ==> ClearColumn(c, w, h, x, y, len) == ClearColumn(Put(c, x, y, None), w, h, x, y + 1, len - 1)
    ensures len == 0 ==> ClearColumn(c, w, h, x, y, len) == c
  {
  }

  /** Taking the step at (x, y) leaves the rest of the horizontal pass to do. */
  lemma HorizontalPassUnfolds(c: Cells, c': Cells, w: nat, h: nat, x: int, y: int, n: nat, n': nat)
    requires Shaped(c, w, h) && 0 <= x < w && 0 <= y < h
    requires c' == HorizontalStep(c, w, h, x, y).cells && n' == n + HorizontalStep(c, w, h, x, y).removed
    ensures HorizontalPass(c', w, h, x, y + 1, n') == HorizontalPass(c, w, h, x, y, n)
  {
  }

  /** Taking the step at (row y, column x) leaves the rest of the vertical pass to do. */
  lemma VerticalPassUnfolds(c: Cells, c': Cells, w: nat, h: nat, bound: int, y: int, x: int, n: nat, n': nat)
    requires Shaped(c, w, h) && bound <= h && 0 <= y < h && 0 <= x < w
    requires c' == VerticalStep(c, w, h, bound, x, y).cells && n' == n + VerticalStep(c, w, h, bound, x, y).removed
    ensures VerticalPass(c', w, h, bound, y, x + 1, n') == VerticalPass(c, w, h, bound, y, x, n)
  {
  }

  /** Whether three tokens of one kind lie rightward from (x, y). */
  predicate GridHasHorizontalMatch(gm: GameManager, x: int, y: int)
    reads gm, gm.gridArray
    requires gm.Valid() && 0 <= x && x + 2 < gm.gridWidth && 0 <= y < gm.gridHeight
    ensures GridHasHorizontalMatch(gm, x, y) <==> HorizontalMatchAt(gm.Cells(), gm.gridWidth, gm.gridHeight, x, y)
    ensures GridHasHorizontalMatch(gm, x, y) <==> HorizontalRunLength(gm.Cells(), gm.gridWidth, gm.gridHeight, x, y) >= 3
  {
    ThreeAlike(gm.gridArray[x, y], gm.gridArray[x + 1, y], gm.gridArray[x + 2, y])
  }

  /** Whether three tokens of one kind lie upward from (x, y). */
  predicate GridHasVerticalMatch(gm: GameManager, x: int, y: int)
    reads gm, gm.gridArray
    requires gm.Valid() && 0 <= x < gm.gridWidth && 0 <= y && y + 2 < gm.gridHeight
    ensures GridHasVerticalMatch(gm, x, y) <==> VerticalMatchAt(gm.Cells(), gm.gridWidth, gm.gridHeight, x, y)
    ensures GridHasVerticalMatch(gm, x, y) <==> VerticalRunLength(gm.Cells(), gm.gridWidth, gm.gridHeight, x, y, gm.gridHeight) >= 3
  {
    ThreeAlike(gm.gridArray[x, y], gm.gridArray[x, y + 1], gm.gridArray[x, y + 2])
  }

  /** Whether the grid holds a run of three anywhere. Every cell is visited;
      the answer stays true once found. */
  method GridHasMatch(gm: GameManager) returns (hasMatch: bool)
    requires gm.Valid()
    ensures hasMatch <==> HasMatch(gm.Cells(), gm.gridWidth, gm.gridHeight)
  {
    ghost var c := gm.Cells();
    var w, h := gm.gridWidth, gm.gridHeight;
    hasMatch := false;
    for x := 0 to w
      invariant hasMatch <==> exists a, b | 0 <= a < x && 0 <= b < h :: MatchStartsAt(c, w, h, a, b)
    {
      for y := 0 to h
        invariant hasMatch <==> exists a, b | 0 <= a < w && 0 <= b < h && ScanBefore((a, b), (x, y)) :: MatchStartsAt(c, w, h, a, b)
      {
        ghost var before := hasMatch;
        if x < w - 2 {
          hasMatch := hasMatch || GridHasHorizontalMatch(gm, x, y);
        }
        if y < h - 2 {
          hasMatch := hasMatch || GridHasVerticalMatch(gm, x, y);
        }
        assert hasMatch == (before || MatchStartsAt(c, w, h, x, y));
      }
    }
  }

  /** How far rightward the run that starts at (x, y) extends: the start
      cell and every following cell up to the first empty or different one. */
  method GetHorizontalMatchLength(gm: GameManager, x: int, y: int) returns (matchLength: int)
    requires gm.Valid() && 0 <= x < gm.gridWidth && 0 <= y < gm.gridHeight
    ensures matchLength == HorizontalRunLength(gm.Cells(), gm.gridWidth, gm.gridHeight, x, y)
  {
    ghost var c := gm.Cells();
    matchLength := 1;
    var first := gm.gridArray[x, y];
    if first.Some? {
      for i := x + 1 to gm.gridWidth
        invariant matchLength == i - x
        invariant RunRight(c, gm.gridWidth, gm.gridHeight, x, y, x + 1) == matchLength - 1 + RunRight(c, gm.gridWidth, gm.gridHeight, x, y, i)
      {
        var other := gm.gridArray[i, y];
        if other.Some? {
          if first.value.kind == other.value.kind {
            matchLength := matchLength + 1;
          } else {
            break;
          }
        } else {
          break;
        }
      }
    }
  }

  /** How far upward the run that starts at (x, y) extends, scanning rows
      below the grid height. */
  method GetVerticalMatchLength(gm: GameManager, x: int, y: int) returns (matchLength: int)
    requires gm.Valid() && 0 <= x < gm.gridWidth && 0 <= y < gm.gridHeight
    ensures matchLength == VerticalRunLength(gm.Cells(), gm.gridWidth, gm.gridHeight, x, y, gm.gridHeight)
  {
    ghost var c := gm.Cells();
    matchLength := 1;
    var first := gm.gridArray[x, y];
    if first.Some? {
      for i := y + 1 to gm.gridHeight
        invariant matchLength == i - y
        invariant RunUp(c, gm.gridWidth, gm.gridHeight, x, y, y + 1, gm.gridHeight)
                  == matchLength - 1 + RunUp(c, gm.gridWidth, gm.gridHeight, x, y, i, gm.gridHeight)
      {
        var other := gm.gridArray[x, i];
        if other.Some? {
          if first.value.kind == other.value.kind {
            matchLength := matchLength + 1;
          } else {
            break;
          }
        } else {
          break;
        }
      }
    }
  }

  /** Nulls every run of three or more, first scanning for horizontal runs
      (columns outer), then for vertical ones (rows outer), and returns the
      number of cells nulled. */
  method RemoveMatches(gm: GameManager) returns (numRemoved: nat)
    requires gm.Valid()
    modifies gm.gridArray
    ensures gm.Valid()
    ensures gm.Cells() == RemovalOf(old(gm.Cells()), gm.gridWidth, gm.gridHeight, gm.gridHeight).cells
    ensures numRemoved == RemovalOf(old(gm.Cells()), gm.gridWidth, gm.gridHeight, gm.gridHeight).removed
    ensures !HasMatch(gm.Cells(), gm.gridWidth, gm.gridHeight)
    ensures HasMatch(old(gm.Cells()), gm.gridWidth, gm.gridHeight) <==> numRemoved >= 3
    ensures Cleared(old(gm.Cells()), gm.Cells(), gm.gridWidth, gm.gridHeight)
    ensures numRemoved + TokenCount(gm.Cells()) == TokenCount(old(gm.Cells()))
  {
    ghost var c0 := gm.Cells();
    numRemoved := RemoveHorizontalMatches(gm);
    numRemoved := RemoveVerticalMatches(gm, numRemoved);
    RemovalClearsAllRuns(c0, gm.gridWidth, gm.gridHeight);
    RemovalRemovesIffMatch(c0, gm.gridWidth, gm.gridHeight);
    RemovalAccounting(c0, gm.gridWidth, gm.gridHeight, gm.gridHeight);
  }

  /** The first loop nest of RemoveMatches: horizontal runs, columns outer. */
  method RemoveHorizontalMatches(gm: GameManager) returns (numRemoved: nat)
    requires gm.Valid()
    modifies gm.gridArray
    ensures gm.Valid()
    ensures Removal(gm.Cells(), numRemoved) == HorizontalPass(old(gm.Cells()), gm.gridWidth, gm.gridHeight, 0, 0, 0)
  {
    ghost var c0 := gm.Cells();
    var w, h := gm.gridWidth, gm.gridHeight;
    numRemoved := 0;
    for x := 0 to w
      invariant gm.Valid()
      invariant HorizontalPass(gm.Cells(), w, h, x, 0, numRemoved) == HorizontalPass(c0, w, h, 0, 0, 0)
    {
      for y := 0 to h
        invariant gm.Valid()
        invariant HorizontalPass(gm.Cells(), w, h, x, y, numRemoved) == HorizontalPass(c0, w, h, 0, 0, 0)
      {
        ghost var cur, n1 := gm.Cells(), numRemoved;
        ghost var step := HorizontalStep(cur, w, h, x, y);
        if x < w - 2 {
          var horizonMatchLength := GetHorizontalMatchLength(gm, x, y);
          if horizonMatchLength > 2 {
            DestroyRow(gm, x, y, horizonMatchLength);
            numRemoved := numRemoved + horizonMatchLength;
          }
        }
        ghost var after := gm.Cells();
        assert after == step.cells && numRemoved == n1 + step.removed;
        HorizontalPassUnfolds(cur, after, w, h, x, y, n1, numRemoved);
      }
      assert HorizontalPass(gm.Cells(), w, h, x, h, numRemoved) == HorizontalPass(gm.Cells(), w, h, x + 1, 0, numRemoved);
    }
  }

  /** The second loop nest of RemoveMatches: vertical runs, rows outer,
      continuing the count from `removedSoFar`. */
  method RemoveVerticalMatches(gm: GameManager, removedSoFar: nat) returns (numRemoved: nat)
    requires gm.Valid()
    modifies gm.gridArray
    ensures gm.Valid()
    ensures Removal(gm.Cells(), numRemoved) == VerticalPass(old(gm.Cells()), gm.gridWidth, gm.gridHeight, gm.gridHeight, 0, 0, removedSoFar)
  {
    ghost var c1 := gm.Cells();
    ghost var n1 := removedSoFar;
    var w, h := gm.gridWidth, gm.gridHeight;
    numRemoved := removedSoFar;
    for y := 0 to h
      invariant gm.Valid()
      invariant VerticalPass(gm.Cells(), w, h, h, y, 0, numRemoved) == VerticalPass(c1, w, h, h, 0, 0, n1)
    {
      for x := 0 to w
        invariant gm.Valid()
        invariant VerticalPass(gm.Cells(), w, h, h, y, x, numRemoved) == VerticalPass(c1, w, h, h, 0, 0, n1)
      {
        ghost var cur, n2 := gm.Cells(), numRemoved;
        ghost var step := VerticalStep(cur, w, h, h, x, y);
        if y < h - 2 {
          var verticalMatchLength := GetVerticalMatchLength(gm, x, y);
          if verticalMatchLength > 2 {
            DestroyColumn(gm, x, y, verticalMatchLength);
            numRemoved := numRemoved + verticalMatchLength;
          }
        }
        ghost var after := gm.Cells();
        assert after == step.cells && numRemoved == n2 + step.removed;
        VerticalPassUnfolds(cur, after, w, h, h, y, x, n2, numRemoved);
      }
      assert VerticalPass(gm.Cells(), w, h, h, y, w, numRemoved) == VerticalPass(gm.Cells(), w, h, h, y + 1, 0, numRemoved);
    }
  }

  /** Destroys the `len` tokens of row y from column x rightward, nulling their cells. */
  method DestroyRow(gm: GameManager, x: int, y: int, len: nat)
    requires gm.Valid() && 0 <= x && x + len <= gm.gridWidth && 0 <= y < gm.gridHeight
    modifies gm.gridArray
    ensures gm.Valid()
    ensures gm.Cells() == ClearRow(old(gm.Cells()), gm.gridWidth, gm.gridHeight, x, y, len)
  {
    ghost var c0 := gm.Cells();
    var w, h := gm.gridWidth, gm.gridHeight;
    for i := x to x + len
      invariant gm.Valid()
      invariant ClearRow(gm.Cells(), w, h, i, y, x + len - i) == ClearRow(c0, w, h, x, y, len)
    {
      ghost var cur := gm.Cells();
      ClearRowUnfolds(cur, w, h, i, y, x + len - i);
      gm.SetCell(i, y, None);
    }
    ClearRowUnfolds(gm.Cells(), w, h, x + len, y, 0);
  }

  /** Destroys the `len` tokens of column x from row y upward, nulling their cells. */
  method DestroyColumn(gm: GameManager, x: int, y: int, len: nat)
    requires gm.Valid() && 0 <= x < gm.gridWidth && 0 <= y && y + len <= gm.gridHeight
    modifies gm.gridArray
    ensures gm.Valid()
    ensures gm.Cells() == ClearColumn(old(gm.Cells()), gm.gridWidth, gm.gridHeight, x, y, len)
  {
    ghost var c0 := gm.Cells();
    var w, h := gm.gridWidth, gm.gridHeight;
    for i := y to y + len
      invariant gm.Valid()
      invariant ClearColumn(gm.Cells(), w, h, x, i, y + len - i) == ClearColumn(c0, w, h, x, y, len)
    {
      ghost var cur := gm.Cells();
      ClearColumnUnfolds(cur, w, h, x, i, y + len - i);
      gm.SetCell(x, i, None);
    }
    ClearColumnUnfolds(gm.Cells(), w, h, x, y + len, 0);
  }
}

=== FILE: move_tokens.dfy ===
/** Token motion: the animated exchange of two tokens chosen by the player,
    and tokens falling into the empty cells below them. The animation is a
    percentage that Update advances each frame; the grid changes only when
    it has reached 1. */
module Motion {
  import opened Grid
  import opened Game
  import opened Matches
  import opened Repopulate

  /** One frame of progress: the percentage grows by `speed` and is clamped at 1. */
  function Advance(lerp: real, speed: real): (r: real)
    ensures r <= 1.0
    ensures 0.0 <= speed && lerp <= 1.0 ==> lerp <= r
  {
    if lerp + speed >= 1.0 then 1.0 else lerp + speed
  }

  /** The percentage after `n` frames of motion. */
  function Frames(lerp: real, speed: real, n: nat): real
    decreases n
  {
    if n == 0 then lerp else Frames(Advance(lerp, speed), speed, n - 1)
  }

  /** Once complete, an animation stays complete. */
  lemma {:induction false} FramesStayAtEnd(speed: real, n: nat)
    requires 0.0 <= speed
    ensures Frames(1.0, speed, n) == 1.0
    decreases n
  {
    if n > 0 {
      assert Advance(1.0, speed) == 1.0;
      FramesStayAtEnd(speed, n - 1);
    }
  }

  /** With a positive speed an animation completes: after any n frames with
      n * speed >= 1 - lerp the percentage is exactly 1. */
  lemma {:induction false} FramesReachEnd(lerp: real, speed: real, n: nat)
    requires 0.0 < speed && lerp <= 1.0 && (n as real) * speed >= 1.0 - lerp
    ensures Frames(lerp, speed, n) == 1.0
    decreases n
  {
    if n > 0 {
      if lerp + speed >= 1.0 {
        FramesStayAtEnd(speed, n - 1);
      } else {
        assert ((n - 1) as real) * speed == (n as real) * speed - speed;
        FramesReachEnd(lerp + speed, speed, n - 1);
      }
    }
  }

  /** The grid after the exchange completes: the first token is written at
      the second position, then the second token at the first. */
  function Exchange(c: Cells, p1: (int, int), p2: (int, int), t1: Token, t2: Token): (r: Cells)
    requires 0 <= p1.0 < |c| && 0 <= p1.1 < |c[p1.0]|
    requires 0 <= p2.0 < |c| && 0 <= p2.1 < |c[p2.0]|
    ensures |r| == |c| && forall a | 0 <= a < |c| :: |r[a]| == |c[a]|
  {
    Put(Put(c, p2.0, p2.1, Some(t1)), p1.0, p1.1, Some(t2))
  }

  /** Exchanging two distinct cells swaps their tokens and leaves every other cell alone. */
  lemma ExchangeSwaps(c: Cells, p1: (int, int), p2: (int, int), t1: Token, t2: Token)
    requires 0 <= p1.0 < |c| && 0 <= p1.1 < |c[p1.0]|
    requires 0 <= p2.0 < |c| && 0 <= p2.1 < |c[p2.0]|
    requires p1 != p2
    ensures Exchange(c, p1, p2, t1, t2)[p1.0][p1.1] == Some(t2)
    ensures Exchange(c, p1, p2, t1, t2)[p2.0][p2.1] == Some(t1)
    ensures forall a, b | 0 <= a < |c| && 0 <= b < |c[a]| && (a, b) != p1 && (a, b) != p2 ::
      Exchange(c, p1, p2, t1, t2)[a][b] == c[a][b]
  {
  }

  /** Undoing a swap: when the tokens were at the positions given, the
      reverse exchange (positions swapped, tokens kept) restores the grid. */
  lemma ExchangeRoundTrip(c: Cells, p1: (int, int), p2: (int, int), t1: Token, t2: Token)
    requires 0 <= p1.0 < |c| && 0 <= p1.1 < |c[p1.0]|
    requires 0 <= p2.0 < |c| && 0 <= p2.1 < |c[p2.0]|
    requires c[p1.0][p1.1] == Some(t1) && c[p2.0][p2.1] == Some(t2)
    ensures Exchange(Exchange(c, p1, p2, t1, t2), p2, p1, t1, t2) == c
  {
    var r := Exchange(Exchange(c, p1, p2, t1, t2), p2, p1, t1, t2);
    forall a | 0 <= a < |c| ensures r[a] == c[a] {
      forall b | 0 <= b < |c[a]| ensures r[a][b] == c[a][b] {
      }
    }
  }

  /** Exchanging the tokens that are at the two positions loses and creates nothing. */
  lemma ExchangeKeepsTokens(c: Cells, p1: (int, int), p2: (int, int), t1: Token, t2: Token)
    requires 0 <= p1.0 < |c| && 0 <= p1.1 < |c[p1.0]|
    requires 0 <= p2.0 < |c| && 0 <= p2.1 < |c[p2.0]|
    requires c[p1.0][p1.1] == Some(t1) && c[p2.0][p2.1] == Some(t2)
    ensures TokenCount(Exchange(c, p1, p2, t1, t2)) == TokenCount(c)
    ensures forall t :: Copies(Exchange(c, p1, p2, t1, t2), t) == Copies(c, t)
  {
    var c1 := Put(c, p2.0, p2.1, Some(t1));
    PutCounts(c, p2.0, p2.1, Some(t1));
    assert c1[p1.0][p1.1] == Some(t1);
    PutCounts(c1, p1.0, p1.1, Some(t2));
  }

  /** The grid after a token moves from (sx, sy) into (ex, ey). */
  function Move(c: Cells, sx: int, sy: int, ex: int, ey: int, t: Token): (r: Cells)
    requires 0 <= sx < |c| && 0 <= sy < |c[sx]| && 0 <= ex < |c| && 0 <= ey < |c[ex]|
    ensures |r| == |c| && forall a | 0 <= a < |c| :: |r[a]| == |c[a]|
  {
    Put(Put(c, ex, ey, Some(t)), sx, sy, None)
  }

  /** Moving a token into an empty cell keeps every token exactly once. */
  lemma MoveKeepsTokens(c: Cells, sx: int, sy: int, ex: int, ey: int, t: Token)
    requires 0 <= sx < |c| && 0 <= sy < |c[sx]| && 0 <= ex < |c| && 0 <= ey < |c[ex]|
    requires c[sx][sy] == Some(t) && c[ex][ey].None?
    ensures TokenCount(Move(c, sx, sy, ex, ey, t)) == TokenCount(c)
    ensures forall u :: Copies(Move(c, sx, sy, ex, ey, t), u) == Copies(c, u)
  {
    var c1 := Put(c, ex, ey, Some(t));
    PutCounts(c, ex, ey, Some(t));
    assert c1[sx][sy] == Some(t);
    PutCounts(c1, sx, sy, None);
  }

  /** An empty cell directly below a token at (x, y - 1). */
  predicate GapAt(c: Cells, w: nat, h: nat, x: int, y: int)
    requires Shaped(c, w, h) && 0 <= x < w && 1 <= y < h
  {
    c[x][y - 1].None? && c[x][y].Some?
  }

  /** Some token is directly above an empty cell. */
  ghost predicate HasGap(c: Cells, w: nat, h: nat)
    requires Shaped(c, w, h)
  {
    exists x, y | 0 <= x < w && 1 <= y < h :: GapAt(c, w, h, x, y)
  }

  /** Without a gap every column is settled: above an empty cell all cells are empty. */
  lemma {:induction false} GapFreeIsSettled(c: Cells, w: nat, h: nat, x: int, y: int, z: int)
    requires Shaped(c, w, h) && !HasGap(c, w, h)
    requires 0 <= x < w && 0 <= y <= z < h && c[x][y].None?
    ensures c[x][z].None?
    decreases z - y
  {
    if y < z {
      assert !GapAt(c, w, h, x, y + 1);
      GapFreeIsSettled(c, w, h, x, y + 1, z);
    }
  }

  /** A grid with an empty cell and no gap has an empty top cell, so a refill adds a token. */
  lemma SettledEmptyGridHasEmptyTop(c: Cells, w: nat, h: nat)
    requires Shaped(c, w, h) && 1 <= h && !HasGap(c, w, h) && HasEmpty(c, w, h)
    ensures !TopRowFull(c, w, h)
    ensures EmptyTopCount(c, w, h, w) >= 1
  {
    var x, y :| 0 <= x < w && 0 <= y < h && c[x][y].None?;
    GapFreeIsSettled(c, w, h, x, y, h - 1);
    EmptyTopCountPositive(c, w, h, x, w);
  }

  lemma {:induction false} EmptyTopCountPositive(c: Cells, w: nat, h: nat, x: int, k: int)
    requires Shaped(c, w, h) && 1 <= h && 0 <= x < k <= w && c[x][h - 1].None?
    ensures EmptyTopCount(c, w, h, k) >= 1
    decreases k
  {
    if x < k - 1 {
      EmptyTopCountPositive(c, w, h, x, k - 1);
    }
  }

  /** A move into an empty cell followed by a refill loses no token, and
      the grid gains exactly the refill's new tokens. */
  lemma MoveAndRefillKeepsTokens(c: Cells, moved: Cells, c': Cells, sx: int, sy: int, ex: int, ey: int, t: Token,
                                 w: nat, h: nat, kinds: nat, id0: nat, id1: nat)
    requires Shaped(c, w, h) && Shaped(moved, w, h) && Shaped(c', w, h) && 1 <= h && id0 <= id1
    requires 0 <= sx < w && 0 <= sy < h && 0 <= ex < w && 0 <= ey < h
    requires moved == Move(c, sx, sy, ex, ey, t)
    requires Refilled(moved, c', w, h, kinds, id0, id1)
    requires TokenCount(c') == TokenCount(moved) + (id1 - id0)
    ensures c[sx][sy] == Some(t) && c[ex][ey].None? ==>
      KeepsTokens(c, c') && TokenCount(c') == TokenCount(c) + (id1 - id0)
  {
    if c[sx][sy] == Some(t) && c[ex][ey].None? {
      MoveKeepsTokens(c, sx, sy, ex, ey, t);
      RefillKeepsTokens(moved, c', w, h, kinds, id0, id1);
      KeepsTokensChain(c, moved, c');
    }
  }

  /** After a move and a refill the top row is full, and the cell the token
      left is still empty unless it is in the top row. */
  lemma FallStep(m: Cells, c': Cells, w: nat, h: nat, sx: int, sy: int, kinds: nat, id0: nat, id1: nat)
    requires Shaped(m, w, h) && Shaped(c', w, h) && 0 <= sx < w && 0 <= sy < h
    requires m[sx][sy].None?
    requires Refilled(m, c', w, h, kinds, id0, id1)
    ensures sy + 1 < h ==> c'[sx][sy].None?
    ensures TopRowFull(c', w, h)
  {
    RefillFillsTopRow(m, c', w, h, kinds, id0, id1);
  }

  /** Every cell of `c` is kept in `c'`, except rows y and up of column x and
      the empty cells of the top row, which a refill may fill. */
  ghost predicate KeptOutside(c: Cells, c': Cells, w: nat, h: nat, x: int, y: int)
    requires Shaped(c, w, h) && Shaped(c', w, h)
  {
    forall a, r | 0 <= a < w && 0 <= r < h && (a != x || r < y) && (r < h - 1 || c[a][r].Some?) ::
      c'[a][r] == c[a][r]
  }

  /** Every cell of columns k and up of `c` is kept in `c'`, except the empty
      cells of the top row. */
  ghost predicate KeptFrom(c: Cells, c': Cells, w: nat, h: nat, k: int)
    requires Shaped(c, w, h) && Shaped(c', w, h)
  {
    forall a, r | 0 <= a < w && k <= a && 0 <= r < h && (r < h - 1 || c[a][r].Some?) :: c'[a][r] == c[a][r]
  }

  lemma KeptOutsideChain(c: Cells, c': Cells, c'': Cells, w: nat, h: nat, x: int, y: int, y': int)
    requires Shaped(c, w, h) && Shaped(c', w, h) && Shaped(c'', w, h) && y <= y'
    requires KeptOutside(c, c', w, h, x, y) && KeptOutside(c', c'', w, h, x, y')
    ensures KeptOutside(c, c'', w, h, x, y)
  {
    forall a, r | 0 <= a < w && 0 <= r < h && (a != x || r < y) && (r < h - 1 || c[a][r].Some?)
      ensures c''[a][r] == c[a][r]
    {
      assert c'[a][r] == c[a][r];
    }
  }

  /** The lowest gap of column x is at row b. */
  ghost predicate LowestGapAt(c: Cells, w: nat, h: nat, x: int, b: int)
    requires Shaped(c, w, h) && 0 <= x < w
  {
    1 <= b < h && GapAt(c, w, h, x, b) && forall b' | 1 <= b' < b :: !GapAt(c, w, h, x, b')
  }

  /** In column x, the token above the lowest gap of `c` has fallen into the gap in `c'`. */
  ghost predicate LandedInColumn(c: Cells, c': Cells, w: nat, h: nat, x: int)
    requires Shaped(c, w, h) && Shaped(c', w, h) && 0 <= x < w
  {
    forall b | 1 <= b < h && LowestGapAt(c, w, h, x, b) :: c'[x][b - 1] == c[x][b]
  }

  /** LandedInColumn holds for each of the first k columns. */
  ghost predicate Landed(c: Cells, c': Cells, w: nat, h: nat, k: int)
    requires Shaped(c, w, h) && Shaped(c', w, h) && k <= w
  {
    forall a | 0 <= a < k :: LandedInColumn(c, c', w, h, a)
  }

  /** A token that moves from (x, y) one cell down, followed by a refill,
      lands at (x, y - 1), and every cell outside rows y - 1 and up of
      column x is kept. */
  lemma FallFrame(c: Cells, m: Cells, c': Cells, w: nat, h: nat, kinds: nat, id0: nat, id1: nat, x: int, y: int, t: Token)
    requires Shaped(c, w, h) && Shaped(m, w, h) && Shaped(c', w, h) && 0 <= x < w && 1 <= y < h
    requires m == Move(c, x, y, x, y - 1, t) && Refilled(m, c', w, h, kinds, id0, id1)
    ensures KeptOutside(c, c', w, h, x, y - 1)
    ensures c'[x][y - 1] == Some(t)
  {
    assert m[x][y - 1] == Some(t);
    forall a, r | 0 <= a < w && 0 <= r < h && (a != x || r < y - 1) && (r < h - 1 || c[a][r].Some?)
      ensures c'[a][r] == c[a][r]
    {
      assert m[a][r] == c[a][r];
    }
  }

  /** One fall of the upward loop that starts above the empty cell (x, y - 1):
      the first fall puts the token of (x, y) into that cell, and later ones
      keep it there. */
  lemma FallFromStep(c0: Cells, before: Cells, after: Cells, w: nat, h: nat, x: int, y: int, pos: int, t: Token)
    requires Shaped(c0, w, h) && Shaped(before, w, h) && Shaped(after, w, h) && 0 <= x < w && 1 <= y <= pos < h
    requires pos == y ==> before == c0
    requires before[x][pos] == Some(t)
    requires KeptOutside(c0, before, w, h, x, y - 1)
    requires pos > y ==> before[x][y - 1] == c0[x][y]
    requires KeptOutside(before, after, w, h, x, pos - 1) && after[x][pos - 1] == Some(t)
    ensures KeptOutside(c0, after, w, h, x, y - 1)
    ensures after[x][y - 1] == c0[x][y]
  {
    KeptOutsideChain(c0, before, after, w, h, x, y - 1, pos - 1);
  }

  /** A fall from row y of column x, during the scan of that column whose
      first fall was from row `low`: the cells of other columns stay as they
      were, and the token that fell from `low` stays where it landed. */
  lemma ColumnFallStep(c0: Cells, before: Cells, after: Cells, w: nat, h: nat, x: int, y: int, low: int)
    requires Shaped(c0, w, h) && Shaped(before, w, h) && Shaped(after, w, h) && 0 <= x < w && 1 <= low <= y < h
    requires KeptOutside(c0, before, w, h, x, 0)
    requires low < y ==> before[x][low - 1] == c0[x][low]
    requires low == y ==> before == c0
    requires KeptOutside(before, after, w, h, x, y - 1) && after[x][y - 1] == before[x][y]
    ensures KeptOutside(c0, after, w, h, x, 0) && after[x][low - 1] == c0[x][low]
  {
    KeptOutsideChain(c0, before, after, w, h, x, 0, y - 1);
    if low < y {
      assert after[x][low - 1] == before[x][low - 1];
    }
  }

  /** A column has at most one lowest gap, so a token landed in it is all LandedInColumn asks. */
  lemma LandedAtLowestGap(c: Cells, c': Cells, w: nat, h: nat, x: int, low: int)
    requires Shaped(c, w, h) && Shaped(c', w, h) && 0 <= x < w
    requires LowestGapAt(c, w, h, x, low) && c'[x][low - 1] == c[x][low]
    ensures LandedInColumn(c, c', w, h, x)
  {
    forall b | 1 <= b < h && LowestGapAt(c, w, h, x, b) ensures c'[x][b - 1] == c[x][b] {
      assert b == low;
    }
  }

  /** The scan of column x has passed rows 1 .. y-1 of `c0`: `moved` says
      whether it met a gap, `low` is the first gap it met, and, when the
      moves complete (`settled`), the other cells are as in `c0` and the token
      above `low` has landed in it. */
  ghost predicate ColumnScan(c0: Cells, c: Cells, w: nat, h: nat, x: int, y: int, low: int, moved: bool, settled: bool)
    requires Shaped(c0, w, h) && Shaped(c, w, h) && 0 <= x < w && y <= h
  {
    && (!moved ==> forall b | 1 <= b < y :: !GapAt(c0, w, h, x, b))
    && (moved ==> 1 <= low < y && LowestGapAt(c0, w, h, x, low))
    && (settled ==> KeptOutside(c0, c, w, h, x, 0))
    && (settled && moved ==> c[x][low - 1] == c0[x][low])
  }

  /** The scan meets a gap at row y and lets the tokens above it fall. */
  lemma ScanGap(c0: Cells, before: Cells, after: Cells, w: nat, h: nat, x: int, y: int, low: int, moved: bool, settled: bool)
    requires Shaped(c0, w, h) && Shaped(before, w, h) && Shaped(after, w, h) && 0 <= x < w && 1 <= y < h
    requires ColumnScan(c0, before, w, h, x, y, low, moved, settled)
    requires !moved || !settled ==> before == c0
    requires GapAt(before, w, h, x, y)
    requires settled ==> KeptOutside(before, after, w, h, x, y - 1) && after[x][y - 1] == before[x][y]
    ensures ColumnScan(c0, after, w, h, x, y + 1, if moved then low else y, true, settled)
  {
    var low' := if moved then low else y;
    if !moved {
      forall b | 1 <= b < y ensures !GapAt(c0, w, h, x, b) {
        assert !GapAt(c0, w, h, x, b);
      }
      assert LowestGapAt(c0, w, h, x, y);
    }
    if settled {
      ColumnFallStep(c0, before, after, w, h, x, y, low');
    }
  }

  /** The scan passes row y, which is no gap. */
  lemma ScanNoGap(c0: Cells, c: Cells, w: nat, h: nat, x: int, y: int, low: int, moved: bool, settled: bool)
    requires Shaped(c0, w, h) && Shaped(c, w, h) && 0 <= x < w && 1 <= y < h
    requires ColumnScan(c0, c, w, h, x, y, low, moved, settled)
    requires !moved ==> c == c0
    requires !GapAt(c, w, h, x, y)
    ensures ColumnScan(c0, c, w, h, x, y + 1, low, moved, settled)
  {
  }

  /** The scan of the whole column: a fall happened iff the column had a gap,
      and when the moves complete the column's lowest gap is filled. */
  lemma ScanDone(c0: Cells, c: Cells, w: nat, h: nat, x: int, low: int, moved: bool, settled: bool)
    requires Shaped(c0, w, h) && Shaped(c, w, h) && 0 <= x < w && 1 <= h
    requires ColumnScan(c0, c, w, h, x, h, low, moved, settled)
    ensures moved <==> exists b | 1 <= b < h :: GapAt(c0, w, h, x, b)
    ensures settled ==> KeptOutside(c0, c, w, h, x, 0) && LandedInColumn(c0, c, w, h, x)
  {
    if moved {
      assert GapAt(c0, w, h, x, low);
      if settled {
        LandedAtLowestGap(c0, c, w, h, x, low);
      }
    }
  }

  /** Filling column x after the columns before it: the cells of the later
      columns are still those of `c0`, and in column x the token above the
      lowest gap of `c0` has fallen into it. */
  lemma FillColumnStep(c0: Cells, before: Cells, after: Cells, w: nat, h: nat, x: int)
    requires Shaped(c0, w, h) && Shaped(before, w, h) && Shaped(after, w, h) && 0 <= x < w
    requires KeptFrom(c0, before, w, h, x) && Landed(c0, before, w, h, x)
    requires KeptOutside(before, after, w, h, x, 0) && LandedInColumn(before, after, w, h, x)
    ensures KeptFrom(c0, after, w, h, x + 1) && Landed(c0, after, w, h, x + 1)
  {
    forall a, r | x + 1 <= a < w && 0 <= r < h && (r < h - 1 || c0[a][r].Some?) ensures after[a][r] == c0[a][r] {
      assert before[a][r] == c0[a][r];
    }
    forall a, b | 0 <= a <= x && 1 <= b < h && LowestGapAt(c0, w, h, a, b) ensures after[a][b - 1] == c0[a][b] {
      if a == x {
        assert before[x][b] == c0[x][b] && before[x][b - 1] == c0[x][b - 1];
        forall b' | 1 <= b' < b ensures !GapAt(before, w, h, x, b') {
          assert !GapAt(c0, w, h, x, b');
          assert before[x][b' - 1] == c0[x][b' - 1] && before[x][b'] == c0[x][b'];
        }
        assert LowestGapAt(before, w, h, x, b);
      } else {
        assert LandedInColumn(c0, before, w, h, a);
        assert after[a][b - 1] == before[a][b - 1];
      }
    }
  }

  /** The committed part of a move: `token` is written at (endX, endY), the
      start cell is emptied, and the top row is refilled. */
  method MoveAndRepopulate(gm: GameManager, startX: int, startY: int, endX: int, endY: int, token: Token)
    requires gm.Valid() && gm.InBounds((startX, startY)) && gm.InBounds((endX, endY)) && gm.Issued(token)
    modifies gm, gm.gridArray
    ensures gm.Valid() && gm.nextId >= old(gm.nextId)
    ensures gm.nextId == old(gm.nextId)
      + EmptyTopCount(Move(old(gm.Cells()), startX, startY, endX, endY, token), gm.gridWidth, gm.gridHeight, gm.gridWidth)
    ensures Refilled(Move(old(gm.Cells()), startX, startY, endX, endY, token), gm.Cells(),
                     gm.gridWidth, gm.gridHeight, gm.tokenTypes, old(gm.nextId), gm.nextId)
    ensures old(gm.gridArray[startX, startY]) == Some(token) && old(gm.gridArray[endX, endY]).None? ==>
      && KeepsTokens(old(gm.Cells()), gm.Cells())
      && TokenCount(gm.Cells()) == TokenCount(old(gm.Cells())) + (gm.nextId - old(gm.nextId))
    ensures TopRowFull(gm.Cells(), gm.gridWidth, gm.gridHeight)
    ensures startY + 1 < gm.gridHeight ==> gm.gridArray[startX, startY].None?
    ensures endX == startX && endY == startY - 1 ==>
      && KeptOutside(old(gm.Cells()), gm.Cells(), gm.gridWidth, gm.gridHeight, startX, endY)
      && gm.Cells()[endX][endY] == Some(token)
  {
    ghost var c0 := gm.Cells();
    gm.SetCell(endX, endY, Some(token));
    gm.SetCell(startX, startY, None);
    ghost var moved := gm.Cells();
    assert moved == Move(c0, startX, startY, endX, endY, token);
    AddNewTokensToRepopulateGrid(gm);
    MoveAndRefillKeepsTokens(c0, moved, gm.Cells(), startX, startY, endX, endY, token,
                             gm.gridWidth, gm.gridHeight, gm.tokenTypes, old(gm.nextId), gm.nextId);
    FallStep(moved, gm.Cells(), gm.gridWidth, gm.gridHeight, startX, startY, gm.tokenTypes, old(gm.nextId), gm.nextId);
    if endX == startX && endY == startY - 1 {
      FallFrame(c0, moved, gm.Cells(), gm.gridWidth, gm.gridHeight, gm.tokenTypes, old(gm.nextId), gm.nextId,
                startX, startY, token);
    }
  }

  class MoveTokens {
    const gameManager: GameManager
    /** Whether tokens are moving. */
    var move: bool
    /** How far the current motion has progressed, up to 1. */
    var lerpPercent: real
    /** How much lerpPercent grows per frame. */
    const lerpSpeed: real
    /** The pending exchange was made by the player and is undone if it makes no match. */
    var userSwap: bool
    var exchangeToken1: Option<Token>
    var exchangeToken2: Option<Token>
    var exchangeGridPos1: (int, int)
    var exchangeGridPos2: (int, int)

    /** The grid is valid, the percentage never exceeds 1, and a pending
        exchange names two tokens of this grid and two cells inside it. */
    ghost predicate Valid()
      reads this, gameManager, gameManager.gridArray
    {
      && gameManager.Valid()
      && lerpPercent <= 1.0
      && exchangeToken1.Some? == exchangeToken2.Some?
      && gameManager.InBounds(exchangeGridPos1) && gameManager.InBounds(exchangeGridPos2)
      && (exchangeToken1.Some? ==> gameManager.Issued(exchangeToken1.value) && gameManager.Issued(exchangeToken2.value))
    }

    /** Start: nothing moves and the percentage is 0. */
    constructor (gm: GameManager, speed: real)
      requires gm.Valid()
      ensures Valid() && gameManager == gm && lerpSpeed == speed
      ensures !move && lerpPercent == 0.0 && exchangeToken1.None? && exchangeToken2.None?
    {
      gameManager, lerpSpeed := gm, speed;
      move, lerpPercent, userSwap := false, 0.0, false;
      exchangeToken1, exchangeToken2 := None, None;
      exchangeGridPos1, exchangeGridPos2 := (0, 0), (0, 0);
    }

    /** One frame: while moving, advance the percentage and drive a pending exchange. */
    method Update()
      requires Valid()
      modifies this, gameManager.gridArray
      ensures Valid()
      ensures !old(move) ==> unchanged(this) && gameManager.Cells() == old(gameManager.Cells())
      ensures old(move) && old(exchangeToken1).None? ==>
        && lerpPercent == Advance(old(lerpPercent), lerpSpeed) && move
        && exchangeToken1 == old(exchangeToken1) && gameManager.Cells() == old(gameManager.Cells())
      ensures old(move) && old(exchangeToken1).Some? && Advance(old(lerpPercent), lerpSpeed) != 1.0 ==>
        && lerpPercent == Advance(old(lerpPercent), lerpSpeed) && move
        && exchangeToken1 == old(exchangeToken1) && gameManager.Cells() == old(gameManager.Cells())
      ensures old(move) && old(exchangeToken1).Some? && Advance(old(lerpPercent), lerpSpeed) == 1.0 ==>
        gameManager.Cells() == Exchange(old(gameManager.Cells()), old(exchangeGridPos1), old(exchangeGridPos2),
                                        old(exchangeToken1).value, old(exchangeToken2).value)
    {
      if move {
        lerpPercent := Advance(lerpPercent, lerpSpeed);
        if exchangeToken1.Some? {
          ExchangeTokens();
        }
      }
    }

    /** Starts a motion from the beginning. */
    method SetupTokenMove()
      modifies this`move, this`lerpPercent
      ensures move && lerpPercent == 0.0
    {
      move := true;
      lerpPercent := 0.0;
    }

    /** Starts the exchange of token1 at pos1 with token2 at pos2; `reversable`
        asks for the exchange to be undone when it makes no match. */
    method SetupTokenExchange(token1: Token, pos1: (int, int), token2: Token, pos2: (int, int), reversable: bool)
      requires Valid()
      requires gameManager.Issued(token1) && gameManager.Issued(token2)
      requires gameManager.InBounds(pos1) && gameManager.InBounds(pos2)
      modifies this
      ensures Valid()
      ensures move && lerpPercent == 0.0
      ensures exchangeToken1 == Some(token1) && exchangeToken2 == Some(token2)
      ensures exchangeGridPos1 == pos1 && exchangeGridPos2 == pos2 && userSwap == reversable
    {
      SetupTokenMove();
      exchangeToken1 := Some(token1);
      exchangeToken2 := Some(token2);
      exchangeGridPos1 := pos1;
      exchangeGridPos2 := pos2;
      userSwap := reversable;
    }

    /** Drives a pending exchange. When the motion is complete the two
        tokens trade cells; a player's exchange that makes no match is then
        set up in reverse, and otherwise the exchange ends. */
    method ExchangeTokens()
      requires Valid() && exchangeToken1.Some?
      modifies this, gameManager.gridArray
      ensures Valid()
      ensures old(lerpPercent) != 1.0 ==> unchanged(this) && gameManager.Cells() == old(gameManager.Cells())
      ensures old(lerpPercent) == 1.0 ==>
        gameManager.Cells() == Exchange(old(gameManager.Cells()), old(exchangeGridPos1), old(exchangeGridPos2),
                                        old(exchangeToken1).value, old(exchangeToken2).value)
      ensures old(lerpPercent) == 1.0 && old(userSwap)
              && !HasMatch(gameManager.Cells(), gameManager.gridWidth, gameManager.gridHeight) ==>
        && move && lerpPercent == 0.0 && !userSwap
        && exchangeToken1 == old(exchangeToken1) && exchangeToken2 == old(exchangeToken2)
        && exchangeGridPos1 == old(exchangeGridPos2) && exchangeGridPos2 == old(exchangeGridPos1)
      ensures old(lerpPercent) == 1.0
              && !(old(userSwap) && !HasMatch(gameManager.Cells(), gameManager.gridWidth, gameManager.gridHeight)) ==>
        && !move && lerpPercent == 1.0 && exchangeToken1.None? && exchangeToken2.None?
        && userSwap == old(userSwap)
        && exchangeGridPos1 == old(exchangeGridPos1) && exchangeGridPos2 == old(exchangeGridPos2)
    {
      if lerpPercent == 1.0 {
        var token1, token2 := exchangeToken1.value, exchangeToken2.value;
        gameManager.SetCell(exchangeGridPos2.0, exchangeGridPos2.1, Some(token1));
        gameManager.SetCell(exchangeGridPos1.0, exchangeGridPos1.1, Some(token2));
        var hasMatch := GridHasMatch(gameManager);
        if !hasMatch && userSwap {
          SetupTokenExchange(token1, exchangeGridPos2, token2, exchangeGridPos1, false);
        } else {
          exchangeToken1 := None;
          exchangeToken2 := None;
          move := false;
        }
      }
    }

    /** Moves `token` from (startX, startY) into (endX, endY) once the motion is
        complete, emptying the start cell, and refills the top row. */
    method MoveTokenToEmptyPos(startX: int, startY: int, endX: int, endY: int, token: Token)
      requires Valid()
      requires gameManager.InBounds((startX, startY)) && gameManager.InBounds((endX, endY))
      requires gameManager.Issued(token)
      modifies gameManager, gameManager.gridArray
      ensures Valid() && gameManager.nextId >= old(gameManager.nextId)
      ensures lerpPercent != 1.0 ==>
        gameManager.Cells() == old(gameManager.Cells()) && gameManager.nextId == old(gameManager.nextId)
      ensures lerpPercent == 1.0 ==>
        && gameManager.nextId == old(gameManager.nextId)
             + EmptyTopCount(Move(old(gameManager.Cells()), startX, startY, endX, endY, token),
                             gameManager.gridWidth, gameManager.gridHeight, gameManager.gridWidth)
        && Refilled(Move(old(gameManager.Cells()), startX, startY, endX, endY, token), gameManager.Cells(),
                    gameManager.gridWidth, gameManager.gridHeight, gameManager.tokenTypes,
                    old(gameManager.nextId), gameManager.nextId)
      ensures lerpPercent == 1.0 && old(gameManager.gridArray[startX, startY]) == Some(token)
              && old(gameManager.gridArray[endX, endY]).None? ==>
        && KeepsTokens(old(gameManager.Cells()), gameManager.Cells())
        && TokenCount(gameManager.Cells()) == TokenCount(old(gameManager.Cells())) + (gameManager.nextId - old(gameManager.nextId))
      ensures lerpPercent == 1.0 ==> TopRowFull(gameManager.Cells(), gameManager.gridWidth, gameManager.gridHeight)
      ensures lerpPercent == 1.0 && startY + 1 < gameManager.gridHeight ==>
        gameManager.gridArray[startX, startY].None?
      ensures lerpPercent == 1.0 && endX == startX && endY == startY - 1 ==>
        && KeptOutside(old(gameManager.Cells()), gameManager.Cells(), gameManager.gridWidth, gameManager.gridHeight, startX, endY)
        && gameManager.Cells()[endX][endY] == Some(token)
    {
      if lerpPercent == 1.0 {
        MoveAndRepopulate(gameManager, startX, startY, endX, endY, token);
        assert exchangeToken1.Some? ==> gameManager.Issued(exchangeToken1.value) && gameManager.Issued(exchangeToken2.value);
      }
    }

    /** Moves every token of column x from row y up one cell down, bottom to
        top, starting above the empty cell (x, y - 1). */
    method FallFrom(x: int, y: int) returns (moved: bool)
      requires Valid() && 0 <= x < gameManager.gridWidth && 1 <= y < gameManager.gridHeight
      requires lerpPercent == 1.0 ==> gameManager.gridArray[x, y - 1].None?
      modifies gameManager, gameManager.gridArray
      ensures Valid() && gameManager.nextId >= old(gameManager.nextId)
      ensures old(gameManager.gridArray[x, y]).Some? ==> moved
      ensures lerpPercent != 1.0 ==>
        gameManager.Cells() == old(gameManager.Cells()) && gameManager.nextId == old(gameManager.nextId)
      ensures KeepsTokens(old(gameManager.Cells()), gameManager.Cells())
      ensures TokenCount(gameManager.Cells()) == TokenCount(old(gameManager.Cells())) + (gameManager.nextId - old(gameManager.nextId))
      ensures lerpPercent == 1.0 && moved ==> TopRowFull(gameManager.Cells(), gameManager.gridWidth, gameManager.gridHeight)
      ensures lerpPercent == 1.0 ==> gameManager.Cells()[x][y - 1] == old(gameManager.Cells())[x][y]
      ensures lerpPercent == 1.0 ==>
        KeptOutside(old(gameManager.Cells()), gameManager.Cells(), gameManager.gridWidth, gameManager.gridHeight, x, y - 1)
    {
      ghost var c0: Cells, id0 := gameManager.Cells(), gameManager.nextId;
      var h := gameManager.gridHeight;
      moved := false;
      for pos := y to h
        invariant Valid() && gameManager.nextId >= id0
        invariant pos > y ==> (c0[x][y].Some? ==> moved)
        invariant lerpPercent == 1.0 && pos < h ==> gameManager.gridArray[x, pos - 1].None?
        invariant lerpPercent != 1.0 ==> gameManager.Cells() == c0 && gameManager.nextId == id0
        invariant pos == y ==> gameManager.Cells() == c0 && !moved
        invariant KeepsTokens(c0, gameManager.Cells())
        invariant TokenCount(gameManager.Cells()) == TokenCount(c0) + (gameManager.nextId - id0)
        invariant lerpPercent == 1.0 && moved ==> TopRowFull(gameManager.Cells(), gameManager.gridWidth, h)
        invariant lerpPercent == 1.0 ==> KeptOutside(c0, gameManager.Cells(), gameManager.gridWidth, h, x, y - 1)
        invariant lerpPercent == 1.0 && pos > y ==> gameManager.Cells()[x][y - 1] == c0[x][y]
      {
        ghost var before: Cells, n := gameManager.Cells(), gameManager.nextId;
        var token := gameManager.gridArray[x, pos];
        if token.Some? {
          MoveTokenToEmptyPos(x, pos, x, pos - 1, token.value);
          moved := true;
          KeepsTokensChain(c0, before, gameManager.Cells());
          if lerpPercent == 1.0 {
            FallFromStep(c0, before, gameManager.Cells(), gameManager.gridWidth, h, x, y, pos, token.value);
          }
        }
      }
    }

    /** Scans the grid column by column and makes the tokens above every
        gap fall one cell; the result says whether any token was moved.
        Once the motion is complete, moving stops. */
    method MoveTokensToFillEmptySpaces() returns (movedToken: bool)
      requires Valid()
      modifies this`move, gameManager, gameManager.gridArray
      ensures Valid() && gameManager.nextId >= old(gameManager.nextId)
      ensures movedToken <==> HasGap(old(gameManager.Cells()), gameManager.gridWidth, gameManager.gridHeight)
      ensures lerpPercent != 1.0 || !movedToken ==>
        gameManager.Cells() == old(gameManager.Cells()) && gameManager.nextId == old(gameManager.nextId)
      ensures KeepsTokens(old(gameManager.Cells()), gameManager.Cells())
      ensures TokenCount(gameManager.Cells()) == TokenCount(old(gameManager.Cells())) + (gameManager.nextId - old(gameManager.nextId))
      ensures lerpPercent == 1.0 && movedToken ==> TopRowFull(gameManager.Cells(), gameManager.gridWidth, gameManager.gridHeight)
      ensures move == (old(move) && lerpPercent != 1.0)
      ensures lerpPercent == 1.0 ==>
        Landed(old(gameManager.Cells()), gameManager.Cells(), gameManager.gridWidth, gameManager.gridHeight, gameManager.gridWidth)
    {
      ghost var c0: Cells, id0 := gameManager.Cells(), gameManager.nextId;
      var w, h := gameManager.gridWidth, gameManager.gridHeight;
      movedToken := false;
      for x := 0 to w
        invariant Valid() && gameManager.nextId >= id0 && move == old(move)
        invariant !movedToken || lerpPercent != 1.0 ==> gameManager.Cells() == c0 && gameManager.nextId == id0
        invariant !movedToken ==> forall a, b | 0 <= a < x && 1 <= b < h :: !GapAt(c0, w, h, a, b)
        invariant movedToken ==> HasGap(c0, w, h)
        invariant KeepsTokens(c0, gameManager.Cells())
        invariant TokenCount(gameManager.Cells()) == TokenCount(c0) + (gameManager.nextId - id0)
        invariant lerpPercent == 1.0 && movedToken ==> TopRowFull(gameManager.Cells(), w, h)
        invariant lerpPercent == 1.0 ==> KeptFrom(c0, gameManager.Cells(), w, h, x) && Landed(c0, gameManager.Cells(), w, h, x)
      {
        ghost var before: Cells := gameManager.Cells();
        var moved := FillColumn(x);
        ghost var after: Cells := gameManager.Cells();
        KeepsTokensChain(c0, before, after);
        if lerpPercent == 1.0 {
          FillColumnStep(c0, before, after, w, h, x);
        }
        if moved {
          movedToken := true;
        }
      }
      if lerpPercent == 1.0 {
        move := false;
      }
    }

    /** Column x of the scan: bottom to top, the tokens above every gap fall one cell. */
    method FillColumn(x: int) returns (movedToken: bool)
      requires Valid() && 0 <= x < gameManager.gridWidth
      modifies gameManager, gameManager.gridArray
      ensures Valid() && gameManager.nextId >= old(gameManager.nextId)
      ensures movedToken <==> exists b | 1 <= b < gameManager.gridHeight ::
        GapAt(old(gameManager.Cells()), gameManager.gridWidth, gameManager.gridHeight, x, b)
      ensures lerpPercent != 1.0 || !movedToken ==>
        gameManager.Cells() == old(gameManager.Cells()) && gameManager.nextId == old(gameManager.nextId)
      ensures KeepsTokens(old(gameManager.Cells()), gameManager.Cells())
      ensures TokenCount(gameManager.Cells()) == TokenCount(old(gameManager.Cells())) + (gameManager.nextId - old(gameManager.nextId))
      ensures lerpPercent == 1.0 && movedToken ==> TopRowFull(gameManager.Cells(), gameManager.gridWidth, gameManager.gridHeight)
      ensures lerpPercent == 1.0 ==>
        && KeptOutside(old(gameManager.Cells()), gameManager.Cells(), gameManager.gridWidth, gameManager.gridHeight, x, 0)
        && LandedInColumn(old(gameManager.Cells()), gameManager.Cells(), gameManager.gridWidth, gameManager.gridHeight, x)
    {
      ghost var c0: Cells, id0 := gameManager.Cells(), gameManager.nextId;
      var w, h := gameManager.gridWidth, gameManager.gridHeight;
      movedToken := false;
      ghost var low := 0;
      for y := 1 to h
        invariant Valid() && gameManager.nextId >= id0
        invariant !movedToken || lerpPercent != 1.0 ==> gameManager.Cells() == c0 && gameManager.nextId == id0
        invariant KeepsTokens(c0, gameManager.Cells())
        invariant TokenCount(gameManager.Cells()) == TokenCount(c0) + (gameManager.nextId - id0)
        invariant lerpPercent == 1.0 && movedToken ==> TopRowFull(gameManager.Cells(), w, h)
        invariant ColumnScan(c0, gameManager.Cells(), w, h, x, y, low, movedToken, lerpPercent == 1.0)
      {
        ghost var before: Cells := gameManager.Cells();
        if gameManager.gridArray[x, y - 1].None? && gameManager.gridArray[x, y].Some? {
          var moved := FallFrom(x, y);
          ghost var after: Cells := gameManager.Cells();
          KeepsTokensChain(c0, before, after);
          ScanGap(c0, before, after, w, h, x, y, low, movedToken, lerpPercent == 1.0);
          low := if movedToken then low else y;
          movedToken := true;
        } else {
          ScanNoGap(c0, before, w, h, x, y, low, movedToken, lerpPercent == 1.0);
        }
      }
      ScanDone(c0, gameManager.Cells(), w, h, x, low, movedToken, lerpPercent == 1.0);
    }
  }
}

=== FILE: repopulate.dfy ===
/** Refilling the top row: every empty cell of the top row gets a new token. */
module Repopulate {
  import opened Grid
  import opened Game

  /** The number of empty top-row cells among the first k columns. */
  function EmptyTopCount(c: Cells, w: nat, h: nat, k: int): nat
    requires Shaped(c, w, h) && 1 <= h && 0 <= k <= w
  {
    if k == 0 then 0 else EmptyTopCount(c, w, h, k - 1) + (if c[k - 1][h - 1].None? then 1 else 0)
  }

  predicate TopRowFull(c: Cells, w: nat, h: nat)
    requires Shaped(c, w, h) && 1 <= h
  {
    forall x | 0 <= x < w :: c[x][h - 1].Some?
  }

  /** In the first k columns of `c'` every empty top cell of `c` holds a new
      token, one whose identity is in [id0, id1) and whose kind is below
      `kinds`. Its identity is id0 plus the number of empty top cells to its
      left, so no two new tokens share one. Every other cell is as in `c`. */
  ghost predicate RefilledUpTo(c: Cells, c': Cells, w: nat, h: nat, kinds: nat, id0: nat, id1: nat, k: int)
    requires Shaped(c, w, h) && Shaped(c', w, h) && 1 <= h
  {
    && (forall x, y | 0 <= x < w && 0 <= y < h ::
         if x < k && y == h - 1 && c[x][y].None? then
           c'[x][y].Some? && id0 <= c'[x][y].value.id < id1 && c'[x][y].value.kind < kinds
         else
           c'[x][y] == c[x][y])
    && (forall x {:trigger EmptyTopCount(c, w, h, x)} | 0 <= x < k && k <= w && c[x][h - 1].None? ::
         c'[x][h - 1].Some? && c'[x][h - 1].value.id == id0 + EmptyTopCount(c, w, h, x))
  }

  ghost predicate Refilled(c: Cells, c': Cells, w: nat, h: nat, kinds: nat, id0: nat, id1: nat)
    requires Shaped(c, w, h) && Shaped(c', w, h) && 1 <= h
  {
    RefilledUpTo(c, c', w, h, kinds, id0, id1, w)
  }

  /** Visits the top row left to right and puts a new token into every empty cell. */
  method AddNewTokensToRepopulateGrid(gm: GameManager)
    requires gm.Valid()
    modifies gm, gm.gridArray
    ensures gm.Valid()
    ensures gm.nextId == old(gm.nextId) + EmptyTopCount(old(gm.Cells()), gm.gridWidth, gm.gridHeight, gm.gridWidth)
    ensures Refilled(old(gm.Cells()), gm.Cells(), gm.gridWidth, gm.gridHeight, gm.tokenTypes, old(gm.nextId), gm.nextId)
    ensures TokenCount(gm.Cells()) == TokenCount(old(gm.Cells())) + (gm.nextId - old(gm.nextId))
  {
    ghost var c0, id0 := gm.Cells(), gm.nextId;
    RefillTopRow(gm);
    RefillCounts(c0, gm.Cells(), gm.gridWidth, gm.gridHeight, gm.tokenTypes, id0, gm.nextId, gm.gridWidth);
  }

  /** The visit itself: column by column, an empty top cell gets a new token. */
  method RefillTopRow(gm: GameManager)
    requires gm.Valid()
    modifies gm, gm.gridArray
    ensures gm.Valid()
    ensures gm.nextId == old(gm.nextId) + EmptyTopCount(old(gm.Cells()), gm.gridWidth, gm.gridHeight, gm.gridWidth)
    ensures Refilled(old(gm.Cells()), gm.Cells(), gm.gridWidth, gm.gridHeight, gm.tokenTypes, old(gm.nextId), gm.nextId)
  {
    ghost var c0, id0 := gm.Cells(), gm.nextId;
    for x := 0 to gm.gridWidth
      invariant gm.Valid()
      invariant gm.nextId == id0 + EmptyTopCount(c0, gm.gridWidth, gm.gridHeight, x)
      invariant RefilledUpTo(c0, gm.Cells(), gm.gridWidth, gm.gridHeight, gm.tokenTypes, id0, gm.nextId, x)
    {
      RefillColumn(gm, x, c0, id0);
    }
  }

  /** One step of that visit: column x's top cell gets a new token when it is
      empty, which extends the refill of `c0` by one column. */
  method RefillColumn(gm: GameManager, x: int, ghost c0: Cells, ghost id0: nat)
    requires gm.Valid() && 0 <= x < gm.gridWidth && Shaped(c0, gm.gridWidth, gm.gridHeight)
    requires gm.nextId == id0 + EmptyTopCount(c0, gm.gridWidth, gm.gridHeight, x)
    requires RefilledUpTo(c0, gm.Cells(), gm.gridWidth, gm.gridHeight, gm.tokenTypes, id0, gm.nextId, x)
    modifies gm, gm.gridArray
    ensures gm.Valid()
    ensures gm.nextId == id0 + EmptyTopCount(c0, gm.gridWidth, gm.gridHeight, x + 1)
    ensures RefilledUpTo(c0, gm.Cells(), gm.gridWidth, gm.gridHeight, gm.tokenTypes, id0, gm.nextId, x + 1)
  {
    ghost var before, n := gm.Cells(), gm.nextId;
    var token := gm.gridArray[x, gm.gridHeight - 1];
    if token.None? {
      gm.AddTokenToPosInGrid(x, gm.gridHeight - 1);
    }
    RefillStep(c0, before, gm.Cells(), gm.gridWidth, gm.gridHeight, gm.tokenTypes, id0, n, gm.nextId, x);
  }

  /** Handling column x extends a refill of the columns before it by one
      token when its top cell is empty. */
  lemma RefillStep(c0: Cells, c: Cells, c': Cells, w: nat, h: nat, kinds: nat, id0: nat, n: nat, n': nat, x: int)
    requires Shaped(c0, w, h) && Shaped(c, w, h) && Shaped(c', w, h) && 1 <= h && 0 <= x < w
    requires RefilledUpTo(c0, c, w, h, kinds, id0, n, x) && n == id0 + EmptyTopCount(c0, w, h, x)
    requires c[x][h - 1].None? ==>
      c'[x][h - 1].Some? && c' == Put(c, x, h - 1, c'[x][h - 1])
      && c'[x][h - 1].value.id == n && n' == n + 1 && c'[x][h - 1].value.kind < kinds
    requires c[x][h - 1].Some? ==> c' == c && n' == n
    ensures RefilledUpTo(c0, c', w, h, kinds, id0, n', x + 1)
    ensures n' == n + (if c0[x][h - 1].None? then 1 else 0)
  {
    assert c[x][h - 1] == c0[x][h - 1];
    forall a, b | 0 <= a < w && 0 <= b < h && (a != x || b != h - 1) ensures c'[a][b] == c[a][b] {
    }
  }

  /** Counting empty top cells: a column with an empty top cell adds one to
      the count of every later prefix. */
  lemma {:induction false} EmptyTopCountGrows(c: Cells, w: nat, h: nat, x: int, k: int)
    requires Shaped(c, w, h) && 1 <= h && 0 <= x < k <= w && c[x][h - 1].None?
    ensures EmptyTopCount(c, w, h, x) < EmptyTopCount(c, w, h, k)
    decreases k
  {
    if k - 1 > x {
      EmptyTopCountGrows(c, w, h, x, k - 1);
    }
  }

  /** The tokens a refill adds are pairwise distinct objects: two different
      empty top cells never receive the same token. */
  lemma RefillTokensDistinct(c: Cells, c': Cells, w: nat, h: nat, kinds: nat, id0: nat, id1: nat, x1: int, x2: int)
    requires Shaped(c, w, h) && Shaped(c', w, h) && 1 <= h
    requires Refilled(c, c', w, h, kinds, id0, id1)
    requires 0 <= x1 < x2 < w && c[x1][h - 1].None? && c[x2][h - 1].None?
    ensures c'[x1][h - 1] != c'[x2][h - 1]
  {
    EmptyTopCountGrows(c, w, h, x1, x2);
    assert c'[x1][h - 1].value.id == id0 + EmptyTopCount(c, w, h, x1);
    assert c'[x2][h - 1].value.id == id0 + EmptyTopCount(c, w, h, x2);
  }

  /** A refill adds exactly one token per empty top cell: in the first k
      columns the refilled grid holds EmptyTopCount more tokens. */
  lemma {:induction false} RefillCounts(c: Cells, c': Cells, w: nat, h: nat, kinds: nat, id0: nat, id1: nat, k: int)
    requires Shaped(c, w, h) && Shaped(c', w, h) && 1 <= h && 0 <= k <= w
    requires Refilled(c, c', w, h, kinds, id0, id1)
    ensures CountColumns(c', k) == CountColumns(c, k) + EmptyTopCount(c, w, h, k)
    ensures k == w ==> TokenCount(c') == TokenCount(c) + EmptyTopCount(c, w, h, w)
  {
    if k > 0 {
      RefillCounts(c, c', w, h, kinds, id0, id1, k - 1);
      var x := k - 1;
      var t :| true;
      assert c'[x] == c[x][h - 1 := c'[x][h - 1]] by {
        forall y | 0 <= y < h ensures c'[x][y] == c[x][h - 1 := c'[x][h - 1]][y] {
        }
      }
      ColumnUpdate(c[x], h - 1, c'[x][h - 1], t, h);
    }
  }

  /** After a refill the top row is full. */
  lemma RefillFillsTopRow(c: Cells, c': Cells, w: nat, h: nat, kinds: nat, id0: nat, id1: nat)
    requires Shaped(c, w, h) && Shaped(c', w, h) && 1 <= h
    requires Refilled(c, c', w, h, kinds, id0, id1)
    ensures TopRowFull(c', w, h)
  {
    forall x | 0 <= x < w ensures c'[x][h - 1].Some? {
      assert c'[x][h - 1] == c[x][h - 1] || c'[x][h - 1].Some?;
    }
  }

  /** A refill of a grid whose top row is already full changes nothing. */
  lemma RefillOfFullTopRowIsNoOp(c: Cells, c': Cells, w: nat, h: nat, kinds: nat, id0: nat, id1: nat)
    requires Shaped(c, w, h) && Shaped(c', w, h) && 1 <= h
    requires TopRowFull(c, w, h) && Refilled(c, c', w, h, kinds, id0, id1)
    ensures c' == c
  {
    forall x | 0 <= x < w ensures c'[x] == c[x] {
      forall y | 0 <= y < h ensures c'[x][y] == c[x][y] {
        assert !(y == h - 1 && c[x][y].None?);
      }
    }
  }

  /** A refill destroys nothing, and every token it adds is a new object:
      none of them was on the grid before, when all tokens there had
      identities below id0. */
  lemma RefillAddsOnlyNewTokens(c: Cells, c': Cells, w: nat, h: nat, kinds: nat, id0: nat, id1: nat)
    requires Shaped(c, w, h) && Shaped(c', w, h) && 1 <= h
    requires Refilled(c, c', w, h, kinds, id0, id1)
    requires forall x, y | 0 <= x < w && 0 <= y < h && c[x][y].Some? :: c[x][y].value.id < id0
    ensures KeepsTokens(c, c')
    ensures forall x | 0 <= x < w && c[x][h - 1].None? :: !OnGrid(c, w, h, c'[x][h - 1].value)
  {
    FillingKeepsTokens(c, c', w, h);
  }

  /** A refill only writes empty cells, so no token is lost. */
  lemma RefillKeepsTokens(c: Cells, c': Cells, w: nat, h: nat, kinds: nat, id0: nat, id1: nat)
    requires Shaped(c, w, h) && Shaped(c', w, h) && 1 <= h
    requires Refilled(c, c', w, h, kinds, id0, id1)
    ensures KeepsTokens(c, c')
  {
    FillingKeepsTokens(c, c', w, h);
  }
}

=== FILE: simulation.dfy ===
/** The game manager's frame: a full grid either loses its matches or waits
    for the player; a grid with holes lets tokens fall and, when none can
    fall, refills its top row. */
module Simulation {
  import opened Grid
  import opened Game
  import opened Matches
  import opened Repopulate
  import opened Motion
  import opened Input

  /** One call of the game manager's Update. `click` is this frame's click,
      as SelectToken takes it. */
  method Update(gm: GameManager, mover: MoveTokens, input: InputManager, click: Option<Token>)
    requires input.Valid() && input.gameManager == gm && input.moveManager == mover
    requires click.Some? ==> gm.Issued(click.value)
    modifies gm, gm.gridArray, mover, input`selected
    ensures input.Valid() && gm.nextId >= old(gm.nextId)
    ensures !HasEmpty(old(gm.Cells()), gm.gridWidth, gm.gridHeight) && HasMatch(old(gm.Cells()), gm.gridWidth, gm.gridHeight) ==>
      && gm.Cells() == RemovalOf(old(gm.Cells()), gm.gridWidth, gm.gridHeight, gm.gridHeight).cells
      && !HasMatch(gm.Cells(), gm.gridWidth, gm.gridHeight)
      && TokenCount(gm.Cells()) < TokenCount(old(gm.Cells()))
      && unchanged(mover) && gm.nextId == old(gm.nextId)
      && input.selected == SelectionAfterRemoval(old(input.selected), old(gm.Cells()), gm.Cells(), gm.gridWidth, gm.gridHeight)
    ensures !HasEmpty(old(gm.Cells()), gm.gridWidth, gm.gridHeight) && !HasMatch(old(gm.Cells()), gm.gridWidth, gm.gridHeight) ==>
      gm.Cells() == old(gm.Cells()) && gm.nextId == old(gm.nextId)
    ensures !HasEmpty(old(gm.Cells()), gm.gridWidth, gm.gridHeight) && !HasMatch(old(gm.Cells()), gm.gridWidth, gm.gridHeight) && click.None? ==>
      input.selected == old(input.selected) && unchanged(mover)
    ensures !HasEmpty(old(gm.Cells()), gm.gridWidth, gm.gridHeight) && !HasMatch(old(gm.Cells()), gm.gridWidth, gm.gridHeight) && click.Some? && old(input.selected).None? ==>
      input.selected == click && unchanged(mover)
    ensures !HasEmpty(old(gm.Cells()), gm.gridWidth, gm.gridHeight) && !HasMatch(old(gm.Cells()), gm.gridWidth, gm.gridHeight) && click.Some? && old(input.selected).Some? ==>
      var p1 := PositionOf(old(gm.Cells()), gm.gridWidth, gm.gridHeight, old(input.selected).value);
      var p2 := PositionOf(old(gm.Cells()), gm.gridWidth, gm.gridHeight, click.value);
      && input.selected.None?
      && if SwapAllowed(input.rule, p1, p2) then
           && mover.move && mover.lerpPercent == 0.0 && mover.userSwap
           && mover.exchangeToken1 == old(input.selected) && mover.exchangeToken2 == click
           && mover.exchangeGridPos1 == p1 && mover.exchangeGridPos2 == p2
         else
           unchanged(mover)
    ensures HasEmpty(old(gm.Cells()), gm.gridWidth, gm.gridHeight) ==>
      && KeepsTokens(old(gm.Cells()), gm.Cells())
      && TokenCount(gm.Cells()) == TokenCount(old(gm.Cells())) + (gm.nextId - old(gm.nextId))
      && mover.move == (mover.lerpPercent != 1.0)
      && input.selected == old(input.selected)
    ensures HasEmpty(old(gm.Cells()), gm.gridWidth, gm.gridHeight) && !old(mover.move)
            && HasGap(old(gm.Cells()), gm.gridWidth, gm.gridHeight) ==>
      gm.Cells() == old(gm.Cells()) && gm.nextId == old(gm.nextId) && mover.move && mover.lerpPercent == 0.0
    ensures HasEmpty(old(gm.Cells()), gm.gridWidth, gm.gridHeight) && !HasGap(old(gm.Cells()), gm.gridWidth, gm.gridHeight) ==>
      && Refilled(old(gm.Cells()), gm.Cells(), gm.gridWidth, gm.gridHeight, gm.tokenTypes, old(gm.nextId), gm.nextId)
      && TokenCount(gm.Cells()) > TokenCount(old(gm.Cells()))
    ensures HasEmpty(old(gm.Cells()), gm.gridWidth, gm.gridHeight) ==> mover.lerpPercent == (if old(mover.move) then old(mover.lerpPercent) else 0.0)
    ensures HasEmpty(old(gm.Cells()), gm.gridWidth, gm.gridHeight) ==> mover.userSwap == old(mover.userSwap)
    ensures HasEmpty(old(gm.Cells()), gm.gridWidth, gm.gridHeight) ==> mover.exchangeToken1 == old(mover.exchangeToken1) && mover.exchangeToken2 == old(mover.exchangeToken2)
    ensures HasEmpty(old(gm.Cells()), gm.gridWidth, gm.gridHeight) ==> mover.exchangeGridPos1 == old(mover.exchangeGridPos1) && mover.exchangeGridPos2 == old(mover.exchangeGridPos2)
    ensures HasEmpty(old(gm.Cells()), gm.gridWidth, gm.gridHeight) && HasGap(old(gm.Cells()), gm.gridWidth, gm.gridHeight) && mover.lerpPercent != 1.0 ==>
      gm.Cells() == old(gm.Cells()) && gm.nextId == old(gm.nextId)
    ensures HasEmpty(old(gm.Cells()), gm.gridWidth, gm.gridHeight) && HasGap(old(gm.Cells()), gm.gridWidth, gm.gridHeight) && mover.lerpPercent == 1.0 ==>
      && Landed(old(gm.Cells()), gm.Cells(), gm.gridWidth, gm.gridHeight, gm.gridWidth)
      && TopRowFull(gm.Cells(), gm.gridWidth, gm.gridHeight)
  {
    var hasEmpty := gm.GridHasEmpty();
    if !hasEmpty {
      ClearOrSelect(gm, mover, input, click);
    } else {
      FallOrRefill(gm, mover);
    }
  }

  /** The full-grid branch of a frame: remove the matches, or else poll the player. */
  method ClearOrSelect(gm: GameManager, mover: MoveTokens, input: InputManager, click: Option<Token>)
    requires input.Valid() && input.gameManager == gm && input.moveManager == mover
    requires click.Some? ==> gm.Issued(click.value)
    modifies gm.gridArray, mover, input`selected
    ensures input.Valid()
    ensures HasMatch(old(gm.Cells()), gm.gridWidth, gm.gridHeight) ==>
      && gm.Cells() == RemovalOf(old(gm.Cells()), gm.gridWidth, gm.gridHeight, gm.gridHeight).cells
      && !HasMatch(gm.Cells(), gm.gridWidth, gm.gridHeight)
      && TokenCount(gm.Cells()) < TokenCount(old(gm.Cells()))
      && unchanged(mover)
      && input.selected == SelectionAfterRemoval(old(input.selected), old(gm.Cells()), gm.Cells(), gm.gridWidth, gm.gridHeight)
    ensures !HasMatch(old(gm.Cells()), gm.gridWidth, gm.gridHeight) ==> gm.Cells() == old(gm.Cells())
    ensures !HasMatch(old(gm.Cells()), gm.gridWidth, gm.gridHeight) && click.None? ==>
      input.selected == old(input.selected) && unchanged(mover)
    ensures !HasMatch(old(gm.Cells()), gm.gridWidth, gm.gridHeight) && click.Some? && old(input.selected).None? ==>
      input.selected == click && unchanged(mover)
    ensures !HasMatch(old(gm.Cells()), gm.gridWidth, gm.gridHeight) && click.Some? && old(input.selected).Some? ==>
      var p1 := PositionOf(old(gm.Cells()), gm.gridWidth, gm.gridHeight, old(input.selected).value);
      var p2 := PositionOf(old(gm.Cells()), gm.gridWidth, gm.gridHeight, click.value);
      && input.selected.None?
      && if SwapAllowed(input.rule, p1, p2) then
           && mover.move && mover.lerpPercent == 0.0 && mover.userSwap
           && mover.exchangeToken1 == old(input.selected) && mover.exchangeToken2 == click
           && mover.exchangeGridPos1 == p1 && mover.exchangeGridPos2 == p2
         else
           unchanged(mover)
  {
    var hasMatch := GridHasMatch(gm);
    if hasMatch {
      var wasOnGrid := input.SelectedOnGrid();
      var numRemoved := RemoveMatches(gm);
      assert mover.Valid();
      var isOnGrid := input.SelectedOnGrid();
      if wasOnGrid && !isOnGrid {
        input.selected := None;
      }
    } else {
      input.SelectToken(click);
    }
  }

  /** The branch of a frame for a grid with holes: start moving if idle, let
      tokens fall, and refill the top row when none fell. */
  method FallOrRefill(gm: GameManager, mover: MoveTokens)
    requires mover.Valid() && mover.gameManager == gm
    requires HasEmpty(gm.Cells(), gm.gridWidth, gm.gridHeight)
    modifies gm, gm.gridArray, mover`move, mover`lerpPercent
    ensures mover.Valid() && gm.nextId >= old(gm.nextId)
    ensures KeepsTokens(old(gm.Cells()), gm.Cells())
    ensures TokenCount(gm.Cells()) == TokenCount(old(gm.Cells())) + (gm.nextId - old(gm.nextId))
    ensures mover.move == (mover.lerpPercent != 1.0)
    ensures !old(mover.move) && HasGap(old(gm.Cells()), gm.gridWidth, gm.gridHeight) ==>
      gm.Cells() == old(gm.Cells()) && gm.nextId == old(gm.nextId) && mover.move && mover.lerpPercent == 0.0
    ensures !HasGap(old(gm.Cells()), gm.gridWidth, gm.gridHeight) ==>
      && Refilled(old(gm.Cells()), gm.Cells(), gm.gridWidth, gm.gridHeight, gm.tokenTypes, old(gm.nextId), gm.nextId)
      && TokenCount(gm.Cells()) > TokenCount(old(gm.Cells()))
    ensures mover.lerpPercent == (if old(mover.move) then old(mover.lerpPercent) else 0.0)
    ensures mover.userSwap == old(mover.userSwap)
    ensures mover.exchangeToken1 == old(mover.exchangeToken1) && mover.exchangeToken2 == old(mover.exchangeToken2)
    ensures mover.exchangeGridPos1 == old(mover.exchangeGridPos1) && mover.exchangeGridPos2 == old(mover.exchangeGridPos2)
    ensures HasGap(old(gm.Cells()), gm.gridWidth, gm.gridHeight) && mover.lerpPercent != 1.0 ==>
      gm.Cells() == old(gm.Cells()) && gm.nextId == old(gm.nextId)
    ensures HasGap(old(gm.Cells()), gm.gridWidth, gm.gridHeight) && mover.lerpPercent == 1.0 ==>
      && Landed(old(gm.Cells()), gm.Cells(), gm.gridWidth, gm.gridHeight, gm.gridWidth)
      && TopRowFull(gm.Cells(), gm.gridWidth, gm.gridHeight)
  {
    if !mover.move {
      mover.SetupTokenMove();
    }
    var moved := mover.MoveTokensToFillEmptySpaces();
    if !moved {
      RefillSettledGrid(gm, mover);
    }
  }

  /** The refill of a grid with holes where no token can fall: the top row
      gains at least one new token and every token on the grid stays. */
  method RefillSettledGrid(gm: GameManager, mover: MoveTokens)
    requires mover.Valid() && mover.gameManager == gm
    requires HasEmpty(gm.Cells(), gm.gridWidth, gm.gridHeight) && !HasGap(gm.Cells(), gm.gridWidth, gm.gridHeight)
    modifies gm, gm.gridArray
    ensures mover.Valid() && gm.nextId > old(gm.nextId)
    ensures Refilled(old(gm.Cells()), gm.Cells(), gm.gridWidth, gm.gridHeight, gm.tokenTypes, old(gm.nextId), gm.nextId)
    ensures KeepsTokens(old(gm.Cells()), gm.Cells())
    ensures TokenCount(gm.Cells()) == TokenCount(old(gm.Cells())) + (gm.nextId - old(gm.nextId))
  {
    ghost var c0: Cells, id0 := gm.Cells(), gm.nextId;
    SettledEmptyGridHasEmptyTop(c0, gm.gridWidth, gm.gridHeight);
    AddNewTokensToRepopulateGrid(gm);
    RefillKeepsTokens(c0, gm.Cells(), gm.gridWidth, gm.gridHeight, gm.tokenTypes, id0, gm.nextId);
    assert mover.Valid();
  }
}
